=== FILE: README.md ===
# Solana wallet triangulation and swap cache, modelled in Dafny

The repository is a Go back end that watches Solana wallets. This project models four parts of it:

- **Wallet triangulation** (services/walletTriangulator.go). For each token it:
  - reads the token's mint row from a CSV export;
  - finds the slot where the deployer created the pool;
  - scans the ledger block by block from that slot and collects the signers of the first
    transactions that touch the token, up to a limit;
  - gives up after more than 100 blocks in a row that add no new buyer.

  `FindCommonAddressesInTokens` runs one such scan per token, concurrently. It then counts, for
  every address, the tokens whose first-buyer list contains it.
- **The webhook transaction cache** (routers/webhook.go). It is a map from an increasing
  integer ID to a swap summary. It is filled by the webhook handler, cleared on request, and read
  whole, after an ID, or for its latest ID.
- **The swap projection** (models/SolanaPayload.go). It turns a webhook payload into a
  `TransactionDetails` summary when the payload carries a swap with at least one input and one
  output leg.
- **The slice search** `Find` (utils/helper.go), and its use when a monitored wallet is removed
  from the webhook configuration (services/monitoredwallets.go).

The network is not modelled as I/O. It is a value of type `Network` with three total functions:
- the HTTP answer of the token export, per token;
- the deployer's transaction history, per deployer and signature;
- the `getBlock` answer, per slot.

Each scan is then a function of the network it sees.

Modules:
- `Wrappers`: the `Option` and `Result` types.
- `Helper`: `Find`.
- `MonitoredWallets`: the wallet removal built on `Find`.
- `Models`: the payload types and `GetTransactionDetails`.
- `Webhook`: the class `TransactionCache`, whose `m` and `id` are the Go struct's fields.
- `TriangulatorTypes`: the entities and constants of services/walletTriangulator.go.
- `BlockAddresses`: candidate extraction from a block, and the bounded insert into the address
  set. The address set is the class `AddressSet`; its `keys` lists the Go map's keys in insertion
  order.
- `MintLocator`: selection of the mint row of the export.
- `TokenScanner`: the start slot, the scan loop, and `GetFirstBuyersOfToken`.
- `CommonBuyers`: the fan-out and the merge.

Each method is proved against a specification function:
- `ScanLoop` for the scan, and `FirstBuyers` for the whole of `GetFirstBuyersOfToken`;
- `LastSigner`, `BlockCandidates`, `BlockStep` and `BoundedInsert` for one block;
- `SelectMintRow` and `MintRecordOf` for the export;
- `StartSlot` for the deployment slot;
- `Record`, `RecordAll`, `Merge` and `TokensWith` for the merge.

The lemmas state what those functions guarantee.

Some behaviour of the code is easy to miss on a first reading:
- **Signer-less transactions.** A transaction that touches the token but has no signer is not
  skipped. services/walletTriangulator.go:247 appends the empty string, because
  `signerAddress` is still "". `BlockAddresses.NoSignerContributesEmpty` states this.
- **Start slot.** The start slot is the slot of the *last* CREATE_POOL or ADD_LIQUIDITY entry,
  because the loop at services/walletTriangulator.go:173-177 has no `break`.
  `TokenScanner.StartSlotIsLastPoolEvent` states this.
- **No mint row.** An export with no `mint` row yields the zero record rather than an error, and
  the scan goes on with empty deployer fields.
- **The webhook call.** The webhook handler calls `GetTransactionDetails` with the current ID
  (routers/webhook.go:59), but the method declared at models/SolanaPayload.go:57 takes no
  argument. The model follows the declaration.

## Model

| member | source | states |
|---|---|---|
| Helper.FirstIndex | utils/helper.go:3-10 | the index of the first occurrence of the item, and -1 exactly when the item is absent |
| Helper.Find | utils/helper.go:3-10 | the loop returns the first index holding the item, or -1 when no element equals it |
| Helper.FindExamples | utils/helper_test.go:6-19 | finding 3 in `[0..5]` and "3" in `["0".."5"]` gives index 3 |
| MonitoredWallets.RemoveAddress | services/monitoredwallets.go:128-133 | an absent wallet is an error; otherwise exactly its first occurrence is removed and the other addresses stay in order |
| Models.GetTransactionDetails | models/SolanaPayload.go:57-73 | fails with "invalid SolanaPayload" exactly when there are no events, no "swap" event, no input leg or no output leg; otherwise copies the fee payer, the signature, the first input and output mints and amounts, the timestamp, the fee and the error, with status "confirmed" |
| Models.ProjectionRoundTrip | models/SolanaPayload.go:61-72 | every confirmed summary is recovered exactly from a one-leg swap payload carrying its fields: the projection loses nothing it copies |
| Models.OtherEventsIgnored | models/SolanaPayload.go:58-67 | events under keys other than "swap" do not change the result |
| Webhook.TransactionCache.constructor | routers/webhook.go:19-23 | the cache starts empty with ID 0 |
| Webhook.TransactionCache.Insert | routers/webhook.go:65-68 | stores the summary under the current ID, which was unused, and advances the ID; the keys stay exactly `0 .. ID-1` |
| Webhook.TransactionCache.HandleWebhook | routers/webhook.go:56-71 | a first payload that is not a swap leaves the cache unchanged; a swap is stored under the current ID, which then advances |
| Webhook.TransactionCache.Clear | routers/webhook.go:111-116 | empties the map and resets the ID to 0 |
| Webhook.TransactionCache.LatestId | routers/webhook.go:128-132 | returns ID-1, which is -1 exactly when the cache is empty and otherwise the largest key in the cache |
| Webhook.TransactionCache.AllTransactions | routers/webhook.go:118-126 | returns every cached summary, each once |
| Webhook.TransactionCache.TransactionsAfter | routers/webhook.go:98-109 | returns exactly the summaries whose ID is greater than the argument |
| Webhook.ClearThenInsert | routers/webhook.go:111-116 | after a clear, n inserts leave exactly IDs `0 .. n-1`, holding the summaries in order |
| BlockAddresses.FirstStop | services/walletTriangulator.go:233-243 | the key walk breaks at the first key equal to the token (ignoring case) once a non-empty signer is known, and -1 means it never breaks |
| BlockAddresses.Candidate | services/walletTriangulator.go:229-247 | a transaction contributes an address exactly when one of its account keys is the token, compared case-insensitively |
| BlockAddresses.LastSigner | services/walletTriangulator.go:232-236 | the signer the key walk remembers, kept by the loop of `ExtractCandidate` as its invariant; it has no contract of its own, and `LastSignerIsLast`, `LastSignerNone` and `LastSignerIsSigner` state what it is |
| BlockAddresses.LastSignerIsLast | services/walletTriangulator.go:233-236 | the remembered signer is the key of the last signer seen |
| BlockAddresses.LastSignerNone | services/walletTriangulator.go:232-236 | with no signer key the remembered signer stays empty |
| BlockAddresses.NoSignerContributesEmpty | services/walletTriangulator.go:244-247 | a transaction that touches the token without any signer contributes the empty address |
| BlockAddresses.FirstMatchAfterSigner | services/walletTriangulator.go:237-241 | when the first token key follows a signer, that signer is the transaction's candidate |
| BlockAddresses.LastSignerIsSigner | services/walletTriangulator.go:233-236 | the remembered signer is empty or the key of some signer |
| BlockAddresses.ExtractCandidate | services/walletTriangulator.go:230-247 | the loop over account keys reports interaction exactly when the token occurs, and then returns the transaction's candidate |
| BlockAddresses.BlockCandidates | services/walletTriangulator.go:228-248 | the block's `addressSlice`, which `CollectCandidates` is proved to build: at most one candidate per transaction |
| BlockAddresses.BlockCandidatesMembers | services/walletTriangulator.go:228-248 | an address is among a block's candidates exactly when some transaction of the block contributes it |
| BlockAddresses.CollectCandidates | services/walletTriangulator.go:228-248 | the loop collects the candidates of the block's transactions in order |
| BlockAddresses.BoundedInsert | services/walletTriangulator.go:249-257 | the keys after the locked insert, which `AddressSet.InsertBounded` is proved to produce: no key is lost, and each candidate adds at most one |
| BlockAddresses.BoundedInsertShape | services/walletTriangulator.go:249-257 | the insert keeps the keys distinct, keeps the old keys, takes new keys only from the candidates, and never grows the set beyond max(limit, size before) |
| BlockAddresses.BoundedInsertPrefix | services/walletTriangulator.go:251-256 | some prefix of the candidates is inserted, and a candidate is left out only once the set has reached the limit |
| BlockAddresses.BoundedInsertUnchanged | services/walletTriangulator.go:251-254 | a set already at the limit, or candidates all present, leave the set as it was |
| BlockAddresses.AddressSet.constructor | services/walletTriangulator.go:159-162 | the address set starts empty |
| BlockAddresses.AddressSet.InsertBounded | services/walletTriangulator.go:249-257 | the locked loop updates the set to the bounded insert of the candidates |
| BlockAddresses.BlockStep | services/walletTriangulator.go:206-260 | the effect of `getBlockAddresses` on the keys, which `GetBlockAddresses` is proved to have: it fails exactly on a fetch error whose text lacks "was skipped", and then with that error |
| BlockAddresses.BlockStepShape | services/walletTriangulator.go:206-260 | a successful block step keeps the keys distinct, only adds keys, and stays within max(limit, size before) |
| BlockAddresses.BlockStepMembers | services/walletTriangulator.go:206-260 | a successful step keeps every key it had and adds only candidates of the fetched block; while the map stays below limit, it holds every candidate of that block |
| BlockAddresses.GetBlockAddresses | services/walletTriangulator.go:206-260 | a skipped slot changes nothing; any other fetch failure is returned with the set unchanged; a fetched block inserts its candidates up to the limit |
| MintLocator.RecordOf | services/walletTriangulator.go:307-323 | the record's fifteen fields are the row's fifteen columns, in order |
| MintLocator.SelectMintRow | services/walletTriangulator.go:293-327 | the result of the reader loop, which `GetTokenMintTransaction` returns after a 200 answer: a record is the empty one or the columns of some mint row, and the only errors are the reader's |
| MintLocator.MintRecordOf | services/walletTriangulator.go:277-327 | the result of `getTokenMintTransaction` once the request is answered, which `GetTokenMintTransaction` is proved to compute: a record comes only from a 200 answer, and a transport failure is an error |
| MintLocator.SelectFirstMint | services/walletTriangulator.go:294-325 | the first mint row, after clean non-mint rows, is the one returned |
| MintLocator.SelectNoMint | services/walletTriangulator.go:293-327 | an export with no mint row yields the zero record without an error |
| MintLocator.SelectBadLine | services/walletTriangulator.go:299-302 | an unreadable row before any mint row is an error |
| MintLocator.GetTokenMintTransaction | services/walletTriangulator.go:277-327 | a non-200 status, a transport failure or a CSV error gives the zero record and that error; otherwise the selected mint record |
| TokenScanner.StartSlot | services/walletTriangulator.go:172-177 | the start slot, which `DeploymentBlock` is proved to compute: a start slot other than 0 is the slot of some CREATE_POOL or ADD_LIQUIDITY entry |
| TokenScanner.StartSlotIsLastPoolEvent | services/walletTriangulator.go:172-177 | the start slot is the slot of the last CREATE_POOL or ADD_LIQUIDITY entry |
| TokenScanner.StartSlotWithoutPoolEvent | services/walletTriangulator.go:172-177 | without such an entry the scan starts at slot 0 |
| TokenScanner.DeploymentBlock | services/walletTriangulator.go:172-177 | the loop computes the start slot |
| TokenScanner.ScanLoop | services/walletTriangulator.go:179-197 | the outcome of the scan loop, and the number of blocks it fetched, which `ScanFrom` is proved to reach; it has no contract of its own, and `ScanTurn`, `ScanBounded`, `ScanFindsOnlyCandidates`, `ScanMissesNoCandidate`, `ScanFetchBound`, `ScanReadsOnlyFetchedSlots` and `ScanGivesUp` state what it does |
| TokenScanner.ScanTurn | services/walletTriangulator.go:180-196 | one turn of the loop: a failed fetch ends the scan with its error; a turn that leaves the counter above 100 ends it with the step's keys; any other turn goes on at the next slot, with the counter reset when the set grew |
| TokenScanner.ScanBounded | services/walletTriangulator.go:179-197 | a successful scan returns distinct addresses, extends the ones it started with, and returns at most max(limit, size before) |
| TokenScanner.ScanFindsOnlyCandidates | services/walletTriangulator.go:179-197 | every address a successful scan returns was there at the start or is a candidate of a block at one of the slots the scan fetched |
| TokenScanner.ScanStepAt | services/walletTriangulator.go:179-197 | at every fetched slot of a successful scan, the keys after that slot's step are a prefix of the keys the scan returns |
| TokenScanner.ScanMissesNoCandidate | services/walletTriangulator.go:179-197 | a successful scan that ends below limit holds every candidate of every block it fetched |
| TokenScanner.CandidateSurvives | services/walletTriangulator.go:206-260 | a candidate of a fetched block is in any key list that extends the step's keys while below limit |
| TokenScanner.ScanFetchBound | services/walletTriangulator.go:179-197 | the scan fetches at most 102 blocks per missing buyer plus 102 more, so it always ends |
| TokenScanner.ScanReadsOnlyFetchedSlots | services/walletTriangulator.go:180-196 | the result depends only on the blocks at the slots the scan fetched |
| TokenScanner.SkippedLikeEmptyBlock | services/walletTriangulator.go:219-223 | a slot whose error says "was skipped" counts exactly like an empty block |
| TokenScanner.ScanGivesUp | services/walletTriangulator.go:184-195 | when every slot from the start is skipped, the scan stops without error after at most 102 fetches, keeping the addresses it had |
| TokenScanner.ScanBlock | services/walletTriangulator.go:181-196 | the loop body fetches one block: on a fetch error the keys are unchanged and the error is the scan's; otherwise the new keys are `BlockStep` of the old ones, and the turn either stops past the ceiling with the scan's result or continues with the counter at 1 when the set grew and one more otherwise, as the specified scan does from the next slot |
| TokenScanner.ScanFrom | services/walletTriangulator.go:179-197 | the loop ends with the keys the specified scan returns, or with the block error it stops on |
| TokenScanner.FirstBuyers | services/walletTriangulator.go:153-204 | what `GetFirstBuyersOfToken` is proved to return: on success, distinct first buyers, at most max(limit, 0) of them; `FirstBuyersAreCandidates`, `ScanFindsOnlyCandidates` and `ScanMissesNoCandidate` state which addresses they are |
| TokenScanner.FirstBuyersAreCandidates | services/walletTriangulator.go:153-204 | each first buyer is the signer candidate of a transaction touching the token, in a block at or after the start slot from the deployer's history |
| TokenScanner.NothingFetchedWithoutLimit | services/walletTriangulator.go:180 | a limit of zero or less returns no buyers and fetches nothing |
| TokenScanner.GetFirstBuyersOfToken | services/walletTriangulator.go:153-204 | the method's loop returns the specified first buyers, or no addresses and the error of the mint lookup, the history call or a block fetch |
| TokenScanner.PurchaseCandidates | services/walletTriangulator.go:229-247 | a transaction signed by a buyer and touching the token contributes that buyer |
| TokenScanner.ScanStopsAtLimit | services/walletTriangulator.go:179-197 | three blocks with buyers A, B, C and limit 2 give [A, B] after two fetches; the third block is never fetched |
| CommonBuyers.Record | services/walletTriangulator.go:137-141 | one write of the merge loop: the map gains exactly the address as a key, the entry's latest occurrence is the token, and consistent entries stay consistent (keyed by their own address, count equal to occurrences, at least 1) |
| CommonBuyers.RecordAddress | services/walletTriangulator.go:137-141 | the if/else write gives the map `Record` describes, and the list of keys follows the map's keys |
| CommonBuyers.RecordAll | services/walletTriangulator.go:136-142 | the inner loop over one result, which `RecordResult` is proved to perform: the keys afterwards are the old keys and the result's addresses, and consistent entries stay consistent |
| CommonBuyers.Merge | services/walletTriangulator.go:134-143 | the map after the results have arrived in a given order, which `Collect` is proved to build: every entry is keyed by its own address, and its count, at least 1, is its number of occurrences |
| CommonBuyers.RecordAllEffect | services/walletTriangulator.go:136-142 | recording a token's distinct addresses bumps each of them once and leaves every other entry, or its absence, unchanged |
| CommonBuyers.ArrivalListing | services/walletTriangulator.go:136-141 | a result that lists an address adds its token to that address's entry, creating the entry with count 1 if needed |
| CommonBuyers.ArrivalNotListing | services/walletTriangulator.go:136-141 | a result that does not list an address leaves that address's tally as it was |
| CommonBuyers.TokensWithNone | services/walletTriangulator.go:136-142 | an address in no result is counted for no token |
| CommonBuyers.MergeTallies | services/walletTriangulator.go:134-143 | after the merge, an address has an entry exactly when some result lists it, and its count is the number of those tokens, which are its occurrences |
| CommonBuyers.TokensWithPermutation | services/walletTriangulator.go:134-143 | the tokens an address is counted for do not depend on the order in which the results arrive, up to their order |
| CommonBuyers.TalliesAnyOrder | services/walletTriangulator.go:134-143 | a map that tallies the results in one arrival order tallies them, up to the order of occurrences, in every other order |
| CommonBuyers.TokensWithRemoveAt | services/walletTriangulator.go:134-143 | removing one result from any position removes exactly its token from every address's occurrences |
| CommonBuyers.ResultFor | services/walletTriangulator.go:117-124 | a goroutine sends its token with distinct addresses, at most max(limit, 0) of them: the token's first buyers when the scan succeeded, and none when it failed |
| CommonBuyers.ListedIffCounted | services/walletTriangulator.go:134-143 | an address occurs in some result exactly when it is counted for some token |
| CommonBuyers.ScanTokens | services/walletTriangulator.go:114-125 | each token's result is its first buyers, or the empty list when its scan failed |
| CommonBuyers.RecordResult | services/walletTriangulator.go:135-142 | the inner loop records one result into the map, and the list of keys follows the map's keys |
| CommonBuyers.Collect | services/walletTriangulator.go:134-143 | whatever the arrival order, the results merged are a permutation of those sent, and the map tallies them |
| CommonBuyers.FindCommonAddressesInTokens | services/walletTriangulator.go:104-151 | never returns an error; lists each found address once, and exactly the addresses some scan found; each entry's count is its number of occurrences, and those occurrences are, up to order, the tokens whose results list it |
| CommonBuyers.OrderIndependent | services/walletTriangulator.go:134-150 | reading the map out gives the result above, for any arrival order of the results |
| CommonBuyers.FailedScanCountsNothing | services/walletTriangulator.go:117-124 | with one failing and one succeeding scan returning {X, Y}, X and Y are each counted once, for the succeeding token |

## Left out

- Network I/O is not modelled:
  - the HTTP request to the token export, with its URL, time window and 10-second timeout;
  - the Helius history call;
  - the RPC `getBlock` call with its encoding options.

  Each becomes a field of `Network`, and their failures become the `Error` cases. Transport
  errors are not distinguished beyond those cases.
- CSV tokenising (quotes, lazy quotes, trimming) is not modelled. Each line of the export is
  either its fields or the reader's error; a line whose field count is not 15 is the
  `WrongFieldCount` error.
- Base58 rendering of public keys is not modelled: keys are strings.
- `strings.ToLower` is modelled on ASCII letters only.
- Concurrency is not modelled: the locks, the goroutines, the WaitGroup and the channel. The
  goroutines run one after the other, which is possible because each result depends only on the
  network. The channel's arrival order is an arbitrary choice, and every property of the merge is
  proved for any order.
- Go's random map iteration order is not modelled:
  - the address set and the merge map are read out in insertion order;
  - the cache is read out in ID order.

  Each of these is one of the orders Go may produce, so the results are stated for those orders.
  For the merge, occurrences are compared up to order.
- The websocket broadcast after a cached webhook, the JSON responses and the HTTP handlers'
  argument parsing are not modelled.
- Webhook.TransactionCache.HandleWebhook: an empty payload array, on which `payload[0]` panics at
  routers/webhook.go:59, is excluded by the precondition.
- Webhook.TransactionCache.Insert: does not model the wrap-around of the int64 ID, because it
  would take 2^63 inserts.
- TokenScanner.ScanLoop: does not model uint64 wrap-around of the slot counter, because no real
  ledger reaches it.
- The `nil` receiver check of `GetTransactionDetails` is not modelled: Dafny values cannot be
  nil. The float `tokenAmount` field of a swap leg is left out, because the projection never reads
  it.
- Logging is not modelled.
- `getTokenSignatures` is not part of this model: it only logs the token's signatures, and nothing
  calls it.

=== FILE: block_addresses.dfy ===
/** `getBlockAddresses` of services/walletTriangulator.go: which signer each transaction of
    a block contributes, and the size-bounded insert of those candidates. */
module BlockAddresses {
  import opened Wrappers
  import opened TriangulatorTypes

  // ---------------------------------------------------------------------------------------
  // Candidate extraction for one transaction
  // ---------------------------------------------------------------------------------------

  /** The key of the last account flagged signer in `keys`, or "" when none is. */
  function LastSigner(keys: seq<AccountKey>): string
  {
    if keys == [] then ""
    else if keys[|keys| - 1].signer then keys[|keys| - 1].publicKey
    else LastSigner(keys[..|keys| - 1])
  }

  /** The key walk breaks at `j`: the key is the token and a non-empty signer is known. */
  predicate StopsAt(keys: seq<AccountKey>, token: string, j: int)
    requires 0 <= j < |keys|
  {
    SameAddress(keys[j].publicKey, token) && LastSigner(keys[..j + 1]) != ""
  }

  /** The first index at or after `from` where the walk breaks, or -1. */
  function FirstStop(keys: seq<AccountKey>, token: string, from: nat): (r: int)
    requires from <= |keys|
    ensures r == -1 || from <= r < |keys|
    ensures r >= 0 ==> StopsAt(keys, token, r) && forall j :: from <= j < r ==> !StopsAt(keys, token, j)
    ensures r == -1 ==> forall j :: from <= j < |keys| ==> !StopsAt(keys, token, j)
    decreases |keys| - from
  {
    if from == |keys| then -1
    else if StopsAt(keys, token, from) then from
    else FirstStop(keys, token, from + 1)
  }

  /** Some account key of the transaction is the token, compared case-insensitively. */
  predicate TouchesToken(keys: seq<AccountKey>, token: string)
  {
    exists j :: 0 <= j < |keys| && SameAddress(keys[j].publicKey, token)
  }

  /** What one transaction contributes to the block's candidate list: the signer known when
      the key walk stops, and nothing when the token is not among its keys. */
  function Candidate(tx: AccountTransaction, token: string): (r: Option<string>)
    ensures r.Some? <==> TouchesToken(tx.accountKeys, token)
  {
    var keys := tx.accountKeys;
    var j := FirstStop(keys, token, 0);
    if j >= 0 then Some(LastSigner(keys[..j + 1]))
    else if TouchesToken(keys, token) then Some(LastSigner(keys))
    else None
  }

  /** `LastSigner` is the key of the last account flagged signer. */
  lemma {:induction false} LastSignerIsLast(keys: seq<AccountKey>, j: int)
    requires 0 <= j < |keys| && keys[j].signer
    requires forall k :: j < k < |keys| ==> !keys[k].signer
    ensures LastSigner(keys) == keys[j].publicKey
  {
    if j < |keys| - 1 {
      LastSignerIsLast(keys[..|keys| - 1], j);
    }
  }

  /** With no account flagged signer, `LastSigner` is "". */
  lemma {:induction false} LastSignerNone(keys: seq<AccountKey>)
    requires forall k :: 0 <= k < |keys| ==> !keys[k].signer
    ensures LastSigner(keys) == ""
  {
    if keys != [] {
      LastSignerNone(keys[..|keys| - 1]);
    }
  }

  /** A transaction that touches the token but has no signer contributes "", not nothing. */
  lemma NoSignerContributesEmpty(tx: AccountTransaction, token: string)
    requires TouchesToken(tx.accountKeys, token)
    requires forall k :: 0 <= k < |tx.accountKeys| ==> !tx.accountKeys[k].signer
    ensures Candidate(tx, token) == Some("")
  {
    var keys := tx.accountKeys;
    LastSignerNone(keys);
    var j := FirstStop(keys, token, 0);
    if j >= 0 {
      LastSignerNone(keys[..j + 1]);
      assert false;
    }
  }

  /** When the first occurrence of the token comes after a signer, the candidate is the
      latest signer seen at that occurrence; later keys play no part. */
  lemma FirstMatchAfterSigner(tx: AccountTransaction, token: string, j: int, s: int)
    requires 0 <= s <= j < |tx.accountKeys|
    requires SameAddress(tx.accountKeys[j].publicKey, token)
    requires forall k :: 0 <= k < j ==> !SameAddress(tx.accountKeys[k].publicKey, token)
    requires tx.accountKeys[s].signer && tx.accountKeys[s].publicKey != ""
    requires forall k :: s < k <= j ==> !tx.accountKeys[k].signer
    ensures Candidate(tx, token) == Some(tx.accountKeys[s].publicKey)
  {
    var keys := tx.accountKeys;
    LastSignerIsLast(keys[..j + 1], s);
    assert StopsAt(keys, token, j);
  }

  /** A non-empty candidate is the key of an account flagged signer. */
  lemma {:induction false} LastSignerIsSigner(keys: seq<AccountKey>)
    ensures LastSigner(keys) == "" ||
            exists k :: 0 <= k < |keys| && keys[k].signer && keys[k].publicKey == LastSigner(keys)
  {
    if keys != [] && !keys[|keys| - 1].signer {
      LastSignerIsSigner(keys[..|keys| - 1]);
    }
  }

  /** The inner loop of `getBlockAddresses`: walks the keys, remembering the latest signer,
      and breaks at a token key once a signer is known. */
  method ExtractCandidate(tx: AccountTransaction, token: string) returns (interacted: bool, signerAddress: string)
    ensures interacted <==> TouchesToken(tx.accountKeys, token)
    ensures interacted ==> Candidate(tx, token) == Some(signerAddress)
  {
    var keys := tx.accountKeys;
    interacted, signerAddress := false, "";
    var i := 0;
    while i < |keys|
      invariant 0 <= i <= |keys|
      invariant signerAddress == LastSigner(keys[..i])
      invariant interacted <==> exists j :: 0 <= j < i && SameAddress(keys[j].publicKey, token)
      invariant forall j :: 0 <= j < i ==> !StopsAt(keys, token, j)
    {
      assert keys[..i + 1][..i] == keys[..i];
      if keys[i].signer {
        signerAddress := keys[i].publicKey;
      }
      if SameAddress(keys[i].publicKey, token) {
        interacted := true;
        if signerAddress != "" {
          assert StopsAt(keys, token, i);
          return;
        }
      }
      i := i + 1;
    }
    assert keys[..i] == keys;
  }

  // ---------------------------------------------------------------------------------------
  // Candidates of a block
  // ---------------------------------------------------------------------------------------

  /** The block's candidate list, in transaction order: at most one per transaction. */
  function BlockCandidates(txs: seq<AccountTransaction>, token: string): (r: seq<string>)
    ensures |r| <= |txs|
  {
    if txs == [] then []
    else
      var rest := BlockCandidates(txs[..|txs| - 1], token);
      match Candidate(txs[|txs| - 1], token)
      case Some(a) => rest + [a]
      case None => rest
  }

  /** An address is a candidate of the block exactly when some transaction of the block
      contributes it. */
  lemma {:induction false} BlockCandidatesMembers(txs: seq<AccountTransaction>, token: string, a: string)
    ensures a in BlockCandidates(txs, token) <==> exists i :: 0 <= i < |txs| && Candidate(txs[i], token) == Some(a)
  {
    if txs != [] {
      var init := txs[..|txs| - 1];
      BlockCandidatesMembers(init, token, a);
      assert forall i :: 0 <= i < |init| ==> init[i] == txs[i];
    }
  }

  /** The outer loop of `getBlockAddresses`, building `addressSlice`. */
  method CollectCandidates(txs: seq<AccountTransaction>, token: string) returns (addressSlice: seq<string>)
    ensures addressSlice == BlockCandidates(txs, token)
  {
    addressSlice := [];
    for i := 0 to |txs|
      invariant addressSlice == BlockCandidates(txs[..i], token)
    {
      assert txs[..i + 1][..i] == txs[..i];
      var interacted, signerAddress := ExtractCandidate(txs[i], token);
      if !interacted {
        continue;
      }
      addressSlice := addressSlice + [signerAddress];
    }
    assert txs[..|txs|] == txs;
  }

  // ---------------------------------------------------------------------------------------
  // Size-bounded insert
  // ---------------------------------------------------------------------------------------

  /** `m[a] = true` on the address map, whose keys are kept in insertion order. */
  function Insert(found: seq<string>, a: string): seq<string>
  {
    if a in found then found else found + [a]
  }

  /** Insert the candidates in order, stopping as soon as the map holds `limit` keys: no key
      is lost, and each candidate adds at most one. */
  function BoundedInsert(found: seq<string>, candidates: seq<string>, limit: int): (r: seq<string>)
    ensures |found| <= |r| <= |found| + |candidates|
    decreases |candidates|
  {
    if candidates == [] || |found| >= limit then found
    else BoundedInsert(Insert(found, candidates[0]), candidates[1..], limit)
  }

  /** The insert keeps the keys distinct, only appends, takes new keys only from the
      candidates, and never grows the map beyond `max(limit, size before)`. */
  lemma {:induction false} BoundedInsertShape(found: seq<string>, candidates: seq<string>, limit: int)
    requires NoDuplicates(found)
    ensures var r := BoundedInsert(found, candidates, limit);
      && NoDuplicates(r)
      && |found| <= |r| <= Max(limit, |found|)
      && r[..|found|] == found
      && forall a :: a in r ==> a in found || a in candidates
    decreases |candidates|
  {
    if candidates != [] && |found| < limit {
      var next := Insert(found, candidates[0]);
      BoundedInsertShape(next, candidates[1..], limit);
      var r := BoundedInsert(found, candidates, limit);
      assert r[..|next|][..|found|] == r[..|found|];
      assert next[..|found|] == found;
    }
  }

  /** `r` holds the keys of `found` and of the first `p` candidates, and stops short of the
      other candidates only because it is full. */
  ghost predicate InsertedPrefix(found: seq<string>, candidates: seq<string>, limit: int, r: seq<string>, p: int)
    requires 0 <= p <= |candidates|
  {
    && (forall a :: a in r <==> a in found || a in candidates[..p])
    && (p < |candidates| ==> |r| >= limit)
  }

  /** Candidates go in in order while the map is below `limit`: some prefix of the
      candidates has been inserted, and a candidate is left out only once the map is full. */
  lemma {:induction false} BoundedInsertPrefix(found: seq<string>, candidates: seq<string>, limit: int)
    ensures exists p :: 0 <= p <= |candidates| && InsertedPrefix(found, candidates, limit, BoundedInsert(found, candidates, limit), p)
    decreases |candidates|
  {
    var r := BoundedInsert(found, candidates, limit);
    if candidates == [] || |found| >= limit {
      assert candidates[..0] == [];
      assert InsertedPrefix(found, candidates, limit, r, 0);
    } else {
      var next := Insert(found, candidates[0]);
      assert r == BoundedInsert(next, candidates[1..], limit);
      BoundedInsertPrefix(next, candidates[1..], limit);
      var q :| 0 <= q <= |candidates| - 1 && InsertedPrefix(next, candidates[1..], limit, r, q);
      assert candidates[..q + 1] == [candidates[0]] + candidates[1..][..q];
      forall a
        ensures a in r <==> a in found || a in candidates[..q + 1]
      {
        assert a in next <==> a in found || a == candidates[0];
      }
      assert InsertedPrefix(found, candidates, limit, r, q + 1);
    }
  }

  /** Re-inserting addresses already present, or inserting into a full map (in particular
      with `limit <= 0`), changes nothing. */
  lemma {:induction false} BoundedInsertUnchanged(found: seq<string>, candidates: seq<string>, limit: int)
    requires limit <= |found| || forall c :: c in candidates ==> c in found
    ensures BoundedInsert(found, candidates, limit) == found
  {
    if candidates != [] && |found| < limit {
      assert candidates[0] in found;
      BoundedInsertUnchanged(found, candidates[1..], limit);
    }
  }

  /** The per-scan address map `addresses.m`. Go's map is modelled by its keys in insertion
      order; iterating them is one of the orders Go's map iteration may take. */
  class AddressSet {
    var keys: seq<string>

    ghost predicate Valid()
      reads this
    {
      NoDuplicates(keys)
    }

    constructor ()
      ensures Valid() && keys == []
    {
      keys := [];
    }

    /** Lines 249-257 of `getBlockAddresses`. */
    method InsertBounded(candidates: seq<string>, limit: int)
      requires Valid()
      modifies this
      ensures Valid()
      ensures keys == BoundedInsert(old(keys), candidates, limit)
    {
      var i := 0;
      while i < |candidates|
        invariant 0 <= i <= |candidates|
        invariant NoDuplicates(keys)
        invariant BoundedInsert(keys, candidates[i..], limit) == BoundedInsert(old(keys), candidates, limit)
      {
        if |keys| >= limit {
          break;
        }
        assert candidates[i..][1..] == candidates[i + 1..];
        if candidates[i] !in keys {
          keys := keys + [candidates[i]];
        }
        i := i + 1;
      }
    }
  }

  // ---------------------------------------------------------------------------------------
  // One block of the scan
  // ---------------------------------------------------------------------------------------

  predicate IsSkipped(message: string)
  {
    ContainsText(message, SkippedMarker)
  }

  /** The effect of `getBlockAddresses` at one slot on the keys found so far: a skipped slot
      changes nothing, any other fetch error is returned, a block adds its candidates. */
  function BlockStep(fetched: FetchResult, token: string, limit: int, found: seq<string>): (r: Result<seq<string>, Error>)
    ensures r.Failure? <==> fetched.FetchFailed? && !IsSkipped(fetched.message)
    ensures r.Failure? ==> r.error == BlockFailed(fetched.message)
  {
    match fetched
    case FetchFailed(message) =>
      if IsSkipped(message) then Success(found) else Failure(BlockFailed(message))
    case Fetched(block) =>
      Success(BoundedInsert(found, BlockCandidates(block.transactions, token), limit))
  }

  /** A step keeps the keys distinct, only appends, and stays within `max(limit, size before)`. */
  lemma BlockStepShape(fetched: FetchResult, token: string, limit: int, found: seq<string>)
    requires NoDuplicates(found)
    ensures BlockStep(fetched, token, limit, found).Success? ==>
      var next := BlockStep(fetched, token, limit, found).value;
      && NoDuplicates(next)
      && |found| <= |next| <= Max(limit, |found|)
      && next[..|found|] == found
      && (|next| == |found| ==> next == found)
  {
    if fetched.Fetched? {
      BoundedInsertShape(found, BlockCandidates(fetched.block.transactions, token), limit);
    }
  }

  /** Which addresses a successful step holds: the keys it had, and otherwise only candidates of
      the fetched block; and while the map stays below `limit`, every candidate of that block. */
  lemma BlockStepMembers(fetched: FetchResult, token: string, limit: int, found: seq<string>, a: string)
    requires NoDuplicates(found)
    requires BlockStep(fetched, token, limit, found).Success?
    ensures var next := BlockStep(fetched, token, limit, found).value;
      && (a in found ==> a in next)
      && (a in next ==> a in found || (fetched.Fetched? && a in BlockCandidates(fetched.block.transactions, token)))
      && (fetched.Fetched? && a in BlockCandidates(fetched.block.transactions, token) && |next| < limit ==> a in next)
  {
    if fetched.Fetched? {
      var candidates := BlockCandidates(fetched.block.transactions, token);
      BoundedInsertPrefix(found, candidates, limit);
      var p :| 0 <= p <= |candidates| && InsertedPrefix(found, candidates, limit, BoundedInsert(found, candidates, limit), p);
      assert candidates[..|candidates|] == candidates;
    }
  }

  /** `getBlockAddresses`: fetch one slot and add its candidates to `addresses`. */
  method GetBlockAddresses(blockAt: nat -> FetchResult, slot: nat, addresses: AddressSet, token: string, limit: int)
    returns (err: Option<Error>)
    requires addresses.Valid()
    modifies addresses
    ensures addresses.Valid()
    ensures err.Some? ==> addresses.keys == old(addresses.keys) &&
                          BlockStep(blockAt(slot), token, limit, old(addresses.keys)) == Failure(err.value)
    ensures err.None? ==> BlockStep(blockAt(slot), token, limit, old(addresses.keys)) == Success(addresses.keys)
  {
    var out := blockAt(slot);
    if out.FetchFailed? {
      if IsSkipped(out.message) {
        return None;
      }
      return Some(BlockFailed(out.message));
    }
    var addressSlice := CollectCandidates(out.block.transactions, token);
    addresses.InsertBounded(addressSlice, limit);
    return None;
  }
}

=== FILE: common_buyers.dfy ===
/** `FindCommonAddressesInTokens` of services/walletTriangulator.go: scan every token, turn a
    failed scan into an empty list, and count in how many tokens' lists each address occurs. */
module CommonBuyers {
  import opened Wrappers
  import opened TriangulatorTypes
  import opened TokenScanner
  import Helper

  /** Every entry is keyed by its own address, and counts its occurrences, at least one. */
  predicate Consistent(acc: map<string, WalletOccurrence>)
  {
    forall a :: a in acc ==> acc[a].address == a && 1 <= acc[a].count == |acc[a].occurrences|
  }

  /** One write of the merge loop (lines 137-141): `address` gets an entry whose latest
      occurrence is `token`, and the entry stays consistent. */
  function Record(acc: map<string, WalletOccurrence>, token: string, address: string): (r: map<string, WalletOccurrence>)
    ensures r.Keys == acc.Keys + {address}
    ensures |r[address].occurrences| >= 1 && r[address].occurrences[|r[address].occurrences| - 1] == token
    ensures Consistent(acc) ==> Consistent(r)
  {
    if address !in acc then acc[address := WalletOccurrence(address, 1, [token])]
    else acc[address := WalletOccurrence(address, acc[address].count + 1, acc[address].occurrences + [token])]
  }

  /** The inner loop over one token's addresses: each of them gets an entry, and the map
      stays consistent. */
  function RecordAll(acc: map<string, WalletOccurrence>, token: string, addresses: seq<string>): (r: map<string, WalletOccurrence>)
    ensures forall a :: a in r <==> a in acc || a in addresses
    ensures Consistent(acc) ==> Consistent(r)
  {
    if addresses == [] then acc
    else Record(RecordAll(acc, token, addresses[..|addresses| - 1]), token, addresses[|addresses| - 1])
  }

  /** The merge map after the results `rs` have arrived, in that order. Every entry counts
      its own occurrences. */
  function Merge(rs: seq<FirstBuyerResult>): (r: map<string, WalletOccurrence>)
    ensures Consistent(r)
  {
    if rs == [] then map[]
    else RecordAll(Merge(rs[..|rs| - 1]), rs[|rs| - 1].tokenAddress, rs[|rs| - 1].addresses)
  }

  /** The tokens, in arrival order, whose result lists `a`. */
  function TokensWith(rs: seq<FirstBuyerResult>, a: string): seq<string>
  {
    if rs == [] then []
    else TokensWith(rs[..|rs| - 1], a) + (if a in rs[|rs| - 1].addresses then [rs[|rs| - 1].tokenAddress] else [])
  }

  /** The merge map holds an entry for `a` exactly when some result lists it, and that entry
      lists the tokens whose results contain `a` and counts them. */
  ghost predicate TalliedAt(acc: map<string, WalletOccurrence>, rs: seq<FirstBuyerResult>, a: string)
  {
    && (a in acc <==> exists i :: 0 <= i < |rs| && a in rs[i].addresses)
    && (a in acc ==> acc[a] == WalletOccurrence(a, |TokensWith(rs, a)|, TokensWith(rs, a)))
  }

  /** The merge map tallies every address. */
  ghost predicate Tallies(acc: map<string, WalletOccurrence>, rs: seq<FirstBuyerResult>)
  {
    forall a :: TalliedAt(acc, rs, a)
  }

  /** Recording a token's distinct addresses bumps `a` once if it is one of them, and
      otherwise leaves its entry, or its absence, as it was. */
  lemma {:induction false} RecordAllEffect(acc: map<string, WalletOccurrence>, token: string, addresses: seq<string>, a: string)
    requires NoDuplicates(addresses)
    ensures var r := RecordAll(acc, token, addresses);
      && (a in addresses ==> a in r && r[a] == Record(acc, token, a)[a])
      && (a !in addresses ==> (a in r <==> a in acc) && (a in acc ==> r[a] == acc[a]))
  {
    if addresses != [] {
      var init := addresses[..|addresses| - 1];
      var last := addresses[|addresses| - 1];
      assert addresses == init + [last];
      assert NoDuplicates(init) by {
        forall i, j | 0 <= i < j < |init|
          ensures init[i] != init[j]
        {
          assert init[i] == addresses[i] && init[j] == addresses[j];
        }
      }
      RecordAllEffect(acc, token, init, a);
      var prev := RecordAll(acc, token, init);
      if a == last {
        assert a !in init;
        RecordSameEntry(prev, acc, token, a);
      } else {
        RecordOtherEntry(prev, token, last, a);
      }
    }
  }

  /** A write for one address leaves every other entry, or its absence, as it was. */
  lemma RecordOtherEntry(acc: map<string, WalletOccurrence>, token: string, address: string, a: string)
    requires a != address
    ensures var r := Record(acc, token, address);
      (a in r <==> a in acc) && (a in acc ==> r[a] == acc[a])
  {
  }

  /** A write for `a` depends only on `a`'s entry, or its absence. */
  lemma RecordSameEntry(m: map<string, WalletOccurrence>, n: map<string, WalletOccurrence>, token: string, a: string)
    requires (a in m <==> a in n) && (a in m ==> m[a] == n[a])
    ensures Record(m, token, a)[a] == Record(n, token, a)[a]
  {
  }

  lemma {:induction false} TokensWithNone(rs: seq<FirstBuyerResult>, a: string)
    requires forall i :: 0 <= i < |rs| ==> a !in rs[i].addresses
    ensures TokensWith(rs, a) == []
  {
    if rs != [] {
      TokensWithNone(rs[..|rs| - 1], a);
    }
  }

  /** An arrival that lists `a` adds its token to `a`'s entry, creating the entry if needed. */
  lemma ArrivalListing(init: seq<FirstBuyerResult>, last: FirstBuyerResult, a: string)
    requires NoDuplicates(last.addresses) && a in last.addresses
    requires TalliedAt(Merge(init), init, a)
    ensures TalliedAt(RecordAll(Merge(init), last.tokenAddress, last.addresses), init + [last], a)
  {
    var rs := init + [last];
    assert rs[..|rs| - 1] == init;
    var acc := Merge(init);
    RecordAllEffect(acc, last.tokenAddress, last.addresses, a);
    assert TokensWith(rs, a) == TokensWith(init, a) + [last.tokenAddress];
    if a !in acc {
      assert forall i :: 0 <= i < |init| ==> a !in init[i].addresses;
      TokensWithNone(init, a);
    }
    assert rs[|rs| - 1] == last;
  }

  /** An arrival that does not list `a` leaves `a`'s tally as it was. */
  lemma ArrivalNotListing(init: seq<FirstBuyerResult>, last: FirstBuyerResult, a: string)
    requires NoDuplicates(last.addresses) && a !in last.addresses
    requires TalliedAt(Merge(init), init, a)
    ensures TalliedAt(RecordAll(Merge(init), last.tokenAddress, last.addresses), init + [last], a)
  {
    var rs := init + [last];
    assert rs[..|rs| - 1] == init;
    var acc := Merge(init);
    RecordAllEffect(acc, last.tokenAddress, last.addresses, a);
    assert TokensWith(rs, a) == TokensWith(init, a);
    assert forall i :: 0 <= i < |init| ==> rs[i] == init[i];
    if exists i :: 0 <= i < |rs| && a in rs[i].addresses {
      var i :| 0 <= i < |rs| && a in rs[i].addresses;
      assert i < |init| && a in init[i].addresses;
    }
  }

  /** The merge counts, for every address, the tokens whose (distinct) results contain it. */
  lemma {:induction false} MergeTallies(rs: seq<FirstBuyerResult>)
    requires forall i :: 0 <= i < |rs| ==> NoDuplicates(rs[i].addresses)
    ensures Tallies(Merge(rs), rs)
  {
    if rs != [] {
      var init := rs[..|rs| - 1];
      assert forall i :: 0 <= i < |init| ==> init[i] == rs[i];
      MergeTallies(init);
      var last := rs[|rs| - 1];
      assert rs == init + [last];
      forall a
        ensures TalliedAt(Merge(rs), rs, a)
      {
        assert TalliedAt(Merge(init), init, a);
        if a in last.addresses {
          ArrivalListing(init, last, a);
        } else {
          ArrivalNotListing(init, last, a);
        }
      }
    }
  }

  lemma {:induction false} TokensWithAppend(xs: seq<FirstBuyerResult>, ys: seq<FirstBuyerResult>, a: string)
    ensures TokensWith(xs + ys, a) == TokensWith(xs, a) + TokensWith(ys, a)
  {
    if ys != [] {
      assert (xs + ys)[..|xs + ys| - 1] == xs + ys[..|ys| - 1];
      TokensWithAppend(xs, ys[..|ys| - 1], a);
    } else {
      assert xs + ys == xs;
    }
  }

  /** `s` split around position `k`. */
  lemma SplitAt<T>(s: seq<T>, k: int)
    requires 0 <= k < |s|
    ensures s == s[..k] + ([s[k]] + s[k + 1..])
  {
  }

  lemma MultisetRemoveAt<T>(s: seq<T>, k: int)
    requires 0 <= k < |s|
    ensures multiset(s[..k] + s[k + 1..]) == multiset(s) - multiset{s[k]}
  {
    assert s == s[..k] + [s[k]] + s[k + 1..];
  }

  /** Taking out the result at position `k` takes its token out of the list, wherever it was. */
  lemma TokensWithRemoveAt(ys: seq<FirstBuyerResult>, k: int, a: string)
    requires 0 <= k < |ys|
    ensures multiset(TokensWith(ys, a)) == multiset(TokensWith(ys[..k] + ys[k + 1..], a)) + multiset(TokensWith([ys[k]], a))
  {
    var front, back := ys[..k], ys[k + 1..];
    SplitAt(ys, k);
    TokensWithAppend(front, [ys[k]] + back, a);
    TokensWithAppend([ys[k]], back, a);
    TokensWithAppend(front, back, a);
    var f, o, b := multiset(TokensWith(front, a)), multiset(TokensWith([ys[k]], a)), multiset(TokensWith(back, a));
    assert multiset(TokensWith(ys, a)) == f + o + b;
    assert multiset(TokensWith(front + back, a)) == f + b;
  }

  /** The tokens an address is counted for do not depend on the order the results arrive in. */
  lemma {:induction false} TokensWithPermutation(xs: seq<FirstBuyerResult>, ys: seq<FirstBuyerResult>, a: string)
    requires multiset(xs) == multiset(ys)
    ensures multiset(TokensWith(xs, a)) == multiset(TokensWith(ys, a))
    decreases |xs|
  {
    if xs == [] {
      assert |ys| == |multiset(ys)| == 0;
      assert ys == [];
    } else {
      var n := |xs| - 1;
      assert xs[n] in multiset(ys);
      var k := Helper.FirstIndex(ys, xs[n]);
      MultisetRemoveAt(ys, k);
      MultisetRemoveAt(xs, n);
      assert xs[..n] + xs[n + 1..] == xs[..n];
      TokensWithPermutation(xs[..n], ys[..k] + ys[k + 1..], a);
      TokensWithRemoveAt(ys, k, a);
      TokensWithRemoveAt(xs, n, a);
    }
  }

  /** What the goroutine for `token` sends: its first buyers, or no addresses when the scan failed. */
  function ResultFor(net: Network, limit: int, token: string): (r: FirstBuyerResult)
    ensures r.tokenAddress == token
    ensures NoDuplicates(r.addresses) && |r.addresses| <= Max(limit, 0)
    ensures FirstBuyers(net, token, limit).Failure? ==> r.addresses == []
    ensures FirstBuyers(net, token, limit).Success? ==> r.addresses == FirstBuyers(net, token, limit).value
  {
    FirstBuyerResult(token, if FirstBuyers(net, token, limit).Success? then FirstBuyers(net, token, limit).value else [])
  }

  /** An address occurs in some result exactly when some token is counted for it. */
  lemma {:induction false} ListedIffCounted(rs: seq<FirstBuyerResult>, a: string)
    ensures (exists i :: 0 <= i < |rs| && a in rs[i].addresses) <==> TokensWith(rs, a) != []
  {
    if rs != [] {
      var init := rs[..|rs| - 1];
      ListedIffCounted(init, a);
      assert forall i :: 0 <= i < |init| ==> init[i] == rs[i];
      if a !in rs[|rs| - 1].addresses && (exists i :: 0 <= i < |rs| && a in rs[i].addresses) {
        var i :| 0 <= i < |rs| && a in rs[i].addresses;
        assert a in init[i].addresses;
      }
    }
  }

  /** Some token's scan lists `a`. */
  predicate FoundBySomeScan(net: Network, limit: int, tokenAddresses: seq<string>, a: string)
  {
    exists t :: 0 <= t < |tokenAddresses| && a in ResultFor(net, limit, tokenAddresses[t]).addresses
  }

  /** The results the goroutines send, one per token, in the order the tokens were given. */
  function Sent(net: Network, limit: int, tokenAddresses: seq<string>): seq<FirstBuyerResult>
  {
    seq(|tokenAddresses|, t requires 0 <= t < |tokenAddresses| => ResultFor(net, limit, tokenAddresses[t]))
  }

  /** Taking one result out of the channel queue keeps every remaining result's addresses
      distinct. */
  lemma RemoveAtKeepsDistinct(queue: seq<FirstBuyerResult>, j: int, rest: seq<FirstBuyerResult>)
    requires 0 <= j < |queue| && rest == queue[..j] + queue[j + 1..]
    requires forall k :: 0 <= k < |queue| ==> NoDuplicates(queue[k].addresses)
    ensures forall k :: 0 <= k < |rest| ==> NoDuplicates(rest[k].addresses)
  {
  }

  /** Runs one scan per token; a failed scan contributes no addresses. */
  method ScanTokens(net: Network, limit: int, tokenAddresses: seq<string>) returns (sent: seq<FirstBuyerResult>)
    ensures |sent| == |tokenAddresses|
    ensures forall t :: 0 <= t < |sent| ==> sent[t] == ResultFor(net, limit, tokenAddresses[t])
  {
    sent := [];
    for i := 0 to |tokenAddresses|
      invariant |sent| == i
      invariant forall t :: 0 <= t < i ==> sent[t] == ResultFor(net, limit, tokenAddresses[t])
    {
      var addresses, scanErr := GetFirstBuyersOfToken(net, tokenAddresses[i], limit);
      if scanErr.Some? {
        addresses := [];
      }
      ghost var before := sent;
      sent := sent + [FirstBuyerResult(tokenAddresses[i], addresses)];
      assert sent[i] == ResultFor(net, limit, tokenAddresses[i]);
      assert forall t :: 0 <= t < i ==> sent[t] == before[t];
    }
  }

  /** One more address of the inner loop is one more write. */
  lemma RecordAllSnoc(acc: map<string, WalletOccurrence>, token: string, addresses: seq<string>, k: int)
    requires 0 <= k < |addresses|
    ensures RecordAll(acc, token, addresses[..k + 1]) == Record(RecordAll(acc, token, addresses[..k]), token, addresses[k])
  {
    assert addresses[..k + 1][..k] == addresses[..k];
  }

  /** One write of the merge loop (lines 137-141); `newKeys` gains the address when it is
      new to the map. */
  method RecordAddress(acc: map<string, WalletOccurrence>, keys: seq<string>, token: string, address: string)
    returns (commonAddresses: map<string, WalletOccurrence>, newKeys: seq<string>)
    requires NoDuplicates(keys) && forall a :: a in acc <==> a in keys
    ensures commonAddresses == Record(acc, token, address)
    ensures NoDuplicates(newKeys) && forall a :: a in commonAddresses <==> a in newKeys
  {
    commonAddresses, newKeys := acc, keys;
    if address !in commonAddresses {
      commonAddresses := commonAddresses[address := WalletOccurrence(address, 1, [token])];
      newKeys := newKeys + [address];
    } else {
      commonAddresses := commonAddresses[address := WalletOccurrence(address, commonAddresses[address].count + 1, commonAddresses[address].occurrences + [token])];
    }
  }

  /** The inner loop of the merge: records every address of one result. */
  method RecordResult(acc: map<string, WalletOccurrence>, keys: seq<string>, r: FirstBuyerResult)
    returns (commonAddresses: map<string, WalletOccurrence>, newKeys: seq<string>)
    requires NoDuplicates(keys) && forall a :: a in acc <==> a in keys
    ensures commonAddresses == RecordAll(acc, r.tokenAddress, r.addresses)
    ensures NoDuplicates(newKeys) && forall a :: a in commonAddresses <==> a in newKeys
  {
    commonAddresses, newKeys := acc, keys;
    var k := 0;
    while k < |r.addresses|
      invariant 0 <= k <= |r.addresses|
      invariant commonAddresses == RecordAll(acc, r.tokenAddress, r.addresses[..k])
      invariant NoDuplicates(newKeys) && forall a :: a in commonAddresses <==> a in newKeys
    {
      RecordAllSnoc(acc, r.tokenAddress, r.addresses, k);
      commonAddresses, newKeys := RecordAddress(commonAddresses, newKeys, r.tokenAddress, r.addresses[k]);
      k := k + 1;
    }
    assert r.addresses[..|r.addresses|] == r.addresses;
  }

  /** Drains the channel: the results arrive in some order `arrived`, a permutation of `sent`,
      and each is recorded into the map; `keys` lists the map's keys in first-write order. */
  method Collect(sent: seq<FirstBuyerResult>)
    returns (commonAddresses: map<string, WalletOccurrence>, keys: seq<string>, ghost arrived: seq<FirstBuyerResult>)
    requires forall k :: 0 <= k < |sent| ==> NoDuplicates(sent[k].addresses)
    ensures multiset(arrived) == multiset(sent)
    ensures Tallies(commonAddresses, arrived)
    ensures NoDuplicates(keys) && forall a :: a in commonAddresses <==> a in keys
  {
    var queue := sent;
    arrived := [];
    commonAddresses := map[];
    keys := [];
    while queue != []
      invariant multiset(arrived) + multiset(queue) == multiset(sent)
      invariant forall k :: 0 <= k < |queue| ==> NoDuplicates(queue[k].addresses)
      invariant forall k :: 0 <= k < |arrived| ==> NoDuplicates(arrived[k].addresses)
      invariant commonAddresses == Merge(arrived)
      invariant NoDuplicates(keys) && forall a :: a in commonAddresses <==> a in keys
      decreases |queue|
    {
      var j :| 0 <= j < |queue|;
      var r := queue[j];
      MultisetRemoveAt(queue, j);
      RemoveAtKeepsDistinct(queue, j, queue[..j] + queue[j + 1..]);
      queue := queue[..j] + queue[j + 1..];
      commonAddresses, keys := RecordResult(commonAddresses, keys, r);
      assert (arrived + [r])[..|arrived|] == arrived;
      arrived := arrived + [r];
    }
    MergeTallies(arrived);
  }

  /** Launches one scan per token, merges the results in whatever order they arrive, and returns
      one entry per address that some scan found, with the tokens it was found for. */
  method FindCommonAddressesInTokens(net: Network, limit: int, tokenAddresses: seq<string>)
    returns (addressSlice: seq<WalletOccurrence>, err: Option<Error>)
    ensures err == None
    ensures forall i, j :: 0 <= i < j < |addressSlice| ==> addressSlice[i].address != addressSlice[j].address
    ensures forall i :: 0 <= i < |addressSlice| ==> FoundBySomeScan(net, limit, tokenAddresses, addressSlice[i].address)
    ensures forall t, a :: 0 <= t < |tokenAddresses| && a in ResultFor(net, limit, tokenAddresses[t]).addresses ==>
      exists i :: 0 <= i < |addressSlice| && addressSlice[i].address == a
    ensures forall i :: 0 <= i < |addressSlice| ==>
      && addressSlice[i].count == |addressSlice[i].occurrences|
      && multiset(addressSlice[i].occurrences) == multiset(TokensWith(Sent(net, limit, tokenAddresses), addressSlice[i].address))
  {
    var sent := ScanTokens(net, limit, tokenAddresses);
    var commonAddresses, keys, arrived := Collect(sent);

    // Reading the map out, in the order its keys were first written.
    addressSlice := [];
    for i := 0 to |keys|
      invariant |addressSlice| == i
      invariant forall t :: 0 <= t < i ==> addressSlice[t] == commonAddresses[keys[t]]
    {
      addressSlice := addressSlice + [commonAddresses[keys[i]]];
    }
    err := None;
    assert sent == Sent(net, limit, tokenAddresses);
    OrderIndependent(net, limit, tokenAddresses, arrived, commonAddresses, keys, addressSlice);
  }

  /** Like `Tallies`, with each address's tokens compared up to order. */
  ghost predicate TalliesUpToOrder(acc: map<string, WalletOccurrence>, rs: seq<FirstBuyerResult>)
  {
    forall a ::
      && (a in acc <==> exists i :: 0 <= i < |rs| && a in rs[i].addresses)
      && (a in acc ==> acc[a].address == a && acc[a].count == |acc[a].occurrences|
                       && multiset(acc[a].occurrences) == multiset(TokensWith(rs, a)))
  }

  /** A map that tallies the results in one arrival order tallies them, up to order, in any other. */
  lemma TalliesAnyOrder(acc: map<string, WalletOccurrence>, arrived: seq<FirstBuyerResult>, rs: seq<FirstBuyerResult>)
    requires multiset(arrived) == multiset(rs)
    requires Tallies(acc, arrived)
    ensures TalliesUpToOrder(acc, rs)
  {
    forall a
      ensures && (a in acc <==> exists i :: 0 <= i < |rs| && a in rs[i].addresses)
              && (a in acc ==> acc[a].address == a && acc[a].count == |acc[a].occurrences|
                               && multiset(acc[a].occurrences) == multiset(TokensWith(rs, a)))
    {
      assert TalliedAt(acc, arrived, a);
      TokensWithPermutation(arrived, rs, a);
      ListedIffCounted(arrived, a);
      ListedIffCounted(rs, a);
      assert |multiset(TokensWith(arrived, a))| == |multiset(TokensWith(rs, a))|;
    }
  }

  /** The proof obligation of `FindCommonAddressesInTokens`, whichever order the results arrived in. */
  lemma OrderIndependent(net: Network, limit: int, tokenAddresses: seq<string>, arrived: seq<FirstBuyerResult>,
                         commonAddresses: map<string, WalletOccurrence>, keys: seq<string>, addressSlice: seq<WalletOccurrence>)
    requires multiset(arrived) == multiset(Sent(net, limit, tokenAddresses))
    requires Tallies(commonAddresses, arrived)
    requires NoDuplicates(keys) && forall a :: a in commonAddresses <==> a in keys
    requires |addressSlice| == |keys| && forall t :: 0 <= t < |keys| ==> addressSlice[t] == commonAddresses[keys[t]]
    ensures forall i, j :: 0 <= i < j < |addressSlice| ==> addressSlice[i].address != addressSlice[j].address
    ensures forall i :: 0 <= i < |addressSlice| ==> FoundBySomeScan(net, limit, tokenAddresses, addressSlice[i].address)
    ensures forall t, a :: 0 <= t < |tokenAddresses| && a in ResultFor(net, limit, tokenAddresses[t]).addresses ==>
      exists i :: 0 <= i < |addressSlice| && addressSlice[i].address == a
    ensures forall i :: 0 <= i < |addressSlice| ==>
      && addressSlice[i].count == |addressSlice[i].occurrences|
      && multiset(addressSlice[i].occurrences) == multiset(TokensWith(Sent(net, limit, tokenAddresses), addressSlice[i].address))
  {
    var all := Sent(net, limit, tokenAddresses);
    TalliesAnyOrder(commonAddresses, arrived, all);
    forall i | 0 <= i < |addressSlice|
      ensures addressSlice[i].address == keys[i]
      ensures FoundBySomeScan(net, limit, tokenAddresses, addressSlice[i].address)
    {
      assert keys[i] in commonAddresses;
      var t :| 0 <= t < |all| && keys[i] in all[t].addresses;
      assert keys[i] in ResultFor(net, limit, tokenAddresses[t]).addresses;
    }
    forall t, a | 0 <= t < |tokenAddresses| && a in ResultFor(net, limit, tokenAddresses[t]).addresses
      ensures exists i :: 0 <= i < |addressSlice| && addressSlice[i].address == a
    {
      assert a in all[t].addresses;
      assert a in commonAddresses;
      var i := Helper.FirstIndex(keys, a);
      assert addressSlice[i].address == a;
    }
  }

  /** Two tokens, the first of whose scans fails: each buyer of the second is counted once,
      for the second token, and the failure adds nothing. */
  lemma FailedScanCountsNothing(net: Network, t1: string, t2: string, x: string, y: string)
    requires FirstBuyers(net, t1, 5).Failure?
    requires FirstBuyers(net, t2, 5) == Success([x, y]) && x != y
    ensures Merge(Sent(net, 5, [t1, t2])) ==
      map[x := WalletOccurrence(x, 1, [t2]), y := WalletOccurrence(y, 1, [t2])]
  {
    var rs := Sent(net, 5, [t1, t2]);
    assert rs == [FirstBuyerResult(t1, []), FirstBuyerResult(t2, [x, y])];
    assert rs[..1] == [FirstBuyerResult(t1, [])] && rs[..1][..0] == [];
    assert Merge(rs[..1]) == map[];
    assert [x, y][..1] == [x] && [x, y][..1][..0] == [];
    assert RecordAll(map[], t2, [x]) == map[x := WalletOccurrence(x, 1, [t2])];
  }
}

=== FILE: helper.dfy ===
/** The generic linear search of utils/helper.go. */
module Helper {

  /** Index of the first element of `s` equal to `x`, or -1 when `x` does not occur. */
  function FirstIndex<T(==)>(s: seq<T>, x: T): (r: int)
    ensures -1 <= r < |s|
    ensures r >= 0 ==> s[r] == x && forall j :: 0 <= j < r ==> s[j] != x
    ensures r == -1 <==> x !in s
  {
    if s == [] then -1
    else if s[0] == x then 0
    else
      var t := FirstIndex(s[1..], x);
      if t == -1 then -1 else t + 1
  }

  /** `Find[T comparable]`: walks the slice by index and returns at the first match. */
  method Find<T(==)>(slice: seq<T>, item: T) returns (r: int)
    ensures r == FirstIndex(slice, item)
  {
    var i := 0;
    while i < |slice|
      invariant 0 <= i <= |slice|
      invariant item !in slice[..i]
    {
      if slice[i] == item {
        return i;
      }
      i := i + 1;
    }
    return -1;
  }

  /** The two cases of utils/helper_test.go. */
  lemma FindExamples()
    ensures FirstIndex([0, 1, 2, 3, 4, 5], 3) == 3
    ensures FirstIndex(["0", "1", "2", "3", "4", "5"], "3") == 3
  {
  }
}

=== FILE: mint_locator.dfy ===
/** `getTokenMintTransaction` of services/walletTriangulator.go, from the HTTP answer on:
    the status check and the selection of the first "mint" row of the CSV export. */
module MintLocator {
  import opened Wrappers
  import opened TriangulatorTypes

  const HeaderTag := "type"
  const MintTag := "mint"

  /** A line the reader accepts: split into exactly `FieldsPerRecord` fields. */
  predicate ReadsCleanly(line: CsvLine)
  {
    line.Fields? && |line.fields| == ExportColumns
  }

  predicate IsMintRow(line: CsvLine)
  {
    ReadsCleanly(line) && line.fields[0] == MintTag
  }

  /** The columns of a record, in the export's column order. */
  function Columns(r: TransactionRecord): seq<string>
  {
    [r.recordType, r.slot, r.blockTimeUnix, r.blockTime, r.fee, r.isInner, r.txHash,
     r.sourceOwnerAccount, r.sourceTokenAccount, r.destOwnerAccount, r.destTokenAccount,
     r.amount, r.symbol, r.decimals, r.tokenAddress]
  }

  /** Column `k` of the row becomes field `k` of the record. */
  function RecordOf(fields: seq<string>): (r: TransactionRecord)
    requires |fields| == ExportColumns
    ensures Columns(r) == fields
  {
    TransactionRecord(fields[0], fields[1], fields[2], fields[3], fields[4], fields[5], fields[6],
                      fields[7], fields[8], fields[9], fields[10], fields[11], fields[12],
                      fields[13], fields[14])
  }

  /** The reader loop: the first line the reader rejects is an error, header and other rows
      are skipped, the first "mint" row is taken, and running out of lines gives the empty
      record without an error. A returned record is the empty one or a mint row's columns,
      and the only errors are the reader's. */
  function SelectMintRow(lines: seq<CsvLine>): (r: Result<TransactionRecord, Error>)
    ensures r.Success? ==>
              (r.value == EmptyRecord ||
               exists i :: 0 <= i < |lines| && IsMintRow(lines[i]) && Columns(r.value) == lines[i].fields)
    ensures r.Failure? ==> r.error.CsvFailed? || r.error.WrongFieldCount?
  {
    if lines == [] then Success(EmptyRecord)
    else
      match lines[0]
      case Unreadable(message) => Failure(CsvFailed(message))
      case Fields(fields) =>
        if |fields| != ExportColumns then Failure(WrongFieldCount(|fields|))
        else if fields[0] == HeaderTag then SelectMintRow(lines[1..])
        else if fields[0] == MintTag then Success(RecordOf(fields))
        else SelectMintRow(lines[1..])
  }

  /** The whole of `getTokenMintTransaction` after the request: a transport error or a
      non-200 status ends it with an error; otherwise the rows decide. A record is only ever
      taken from a 200 answer. */
  function MintRecordOf(response: ExportResponse): (r: Result<TransactionRecord, Error>)
    ensures r.Success? ==> response.Response? && response.status == StatusOk
    ensures response.TransportFailure? ==> r.Failure?
  {
    match response
    case TransportFailure(message) => Failure(RequestFailed(message))
    case Response(status, lines) =>
      if status != StatusOk then Failure(BadStatus(status)) else SelectMintRow(lines)
  }

  /** The first "mint" row wins when every earlier line reads cleanly. */
  lemma {:induction false} SelectFirstMint(lines: seq<CsvLine>, i: int)
    requires 0 <= i < |lines| && IsMintRow(lines[i])
    requires forall j :: 0 <= j < i ==> ReadsCleanly(lines[j]) && !IsMintRow(lines[j])
    ensures SelectMintRow(lines) == Success(RecordOf(lines[i].fields))
  {
    if i > 0 {
      SelectFirstMint(lines[1..], i - 1);
    }
  }

  /** Without a "mint" row the result is the empty record and no error. */
  lemma {:induction false} SelectNoMint(lines: seq<CsvLine>)
    requires forall j :: 0 <= j < |lines| ==> ReadsCleanly(lines[j]) && !IsMintRow(lines[j])
    ensures SelectMintRow(lines) == Success(EmptyRecord)
  {
    if lines != [] {
      SelectNoMint(lines[1..]);
    }
  }

  /** A line the reader rejects before any "mint" row makes the whole call fail. */
  lemma {:induction false} SelectBadLine(lines: seq<CsvLine>, i: int)
    requires 0 <= i < |lines| && !ReadsCleanly(lines[i])
    requires forall j :: 0 <= j < i ==> ReadsCleanly(lines[j]) && !IsMintRow(lines[j])
    ensures SelectMintRow(lines).Failure?
  {
    if i > 0 {
      SelectBadLine(lines[1..], i - 1);
    }
  }

  /** `getTokenMintTransaction` from the response on; on an error the record is empty. */
  method GetTokenMintTransaction(response: ExportResponse) returns (record: TransactionRecord, err: Option<Error>)
    ensures MintRecordOf(response).Failure? ==> record == EmptyRecord && err == Some(MintRecordOf(response).error)
    ensures MintRecordOf(response).Success? ==> err == None && record == MintRecordOf(response).value
  {
    if response.TransportFailure? {
      return EmptyRecord, Some(RequestFailed(response.message));
    }
    if response.status != StatusOk {
      return EmptyRecord, Some(BadStatus(response.status));
    }
    var lines := response.lines;
    record := EmptyRecord;
    var i := 0;
    while i < |lines|
      invariant 0 <= i <= |lines|
      invariant SelectMintRow(lines[i..]) == SelectMintRow(lines)
    {
      assert lines[i..][1..] == lines[i + 1..];
      var line := lines[i];
      if line.Unreadable? {
        return EmptyRecord, Some(CsvFailed(line.message));
      }
      if |line.fields| != ExportColumns {
        return EmptyRecord, Some(WrongFieldCount(|line.fields|));
      }
      if line.fields[0] == HeaderTag {
        i := i + 1;
        continue;
      }
      if line.fields[0] == MintTag {
        record := RecordOf(line.fields);
        return record, None;
      }
      i := i + 1;
    }
    return record, None;
  }
}

=== FILE: models.dfy ===
/** The inbound webhook payload and the summary the cache stores (models/SolanaPayload.go,
    models/TransactionDetails.go). */
module Models {
  import opened Wrappers

  datatype RawTokenAmount = RawTokenAmount(decimals: int, tokenAmount: string)

  /** One leg of a swap. The float `TokenAmount` is not part of the model: nothing reads it. */
  datatype TokenIO = TokenIO(
    fromTokenAccount: string,
    fromUserAccount: string,
    mint: string,
    toTokenAccount: string,
    toUserAccount: string,
    tokenStandard: string,
    rawTokenAmount: RawTokenAmount)

  datatype SwapEvent = SwapEvent(tokenInputs: seq<TokenIO>, tokenOutputs: seq<TokenIO>)

  /** `events` is `None` when the JSON map is nil. */
  datatype SolanaPayload = SolanaPayload(
    payloadType: string,
    description: string,
    events: Option<map<string, SwapEvent>>,
    fee: int,
    feePayer: string,
    signature: string,
    timestamp: int,
    transactionError: string)

  datatype TransactionDetails = TransactionDetails(
    account: string,
    signature: string,
    fromToken: string,
    toToken: string,
    amountIn: string,
    amountOut: string,
    timeStamp: int,
    status: string,
    fees: int,
    error: string)

  const SwapKey := "swap"
  const Confirmed := "confirmed"
  const InvalidPayload := "invalid SolanaPayload"

  /** Go's `Events["swap"]`: a missing key reads as the zero event, which has no legs. */
  function SwapOf(events: map<string, SwapEvent>): SwapEvent
  {
    if SwapKey in events then events[SwapKey] else SwapEvent([], [])
  }

  /** `SolanaPayload.GetTransactionDetails`: guard on the swap event, then project. */
  function GetTransactionDetails(p: SolanaPayload): (r: Result<TransactionDetails, string>)
    ensures r.Failure? <==>
      p.events.None? || SwapKey !in p.events.value ||
      p.events.value[SwapKey].tokenInputs == [] || p.events.value[SwapKey].tokenOutputs == []
    ensures r.Failure? ==> r.error == InvalidPayload
    ensures r.Success? ==>
      var swap := p.events.value[SwapKey];
      && r.value.account == p.feePayer
      && r.value.signature == p.signature
      && r.value.fromToken == swap.tokenInputs[0].mint
      && r.value.toToken == swap.tokenOutputs[0].mint
      && r.value.amountIn == swap.tokenInputs[0].rawTokenAmount.tokenAmount
      && r.value.amountOut == swap.tokenOutputs[0].rawTokenAmount.tokenAmount
      && r.value.timeStamp == p.timestamp
      && r.value.status == Confirmed
      && r.value.fees == p.fee
      && r.value.error == p.transactionError
  {
    if p.events.None? || |SwapOf(p.events.value).tokenInputs| == 0 || |SwapOf(p.events.value).tokenOutputs| == 0 then
      Failure(InvalidPayload)
    else
      var swap := SwapOf(p.events.value);
      Success(TransactionDetails(
        account := p.feePayer,
        signature := p.signature,
        fromToken := swap.tokenInputs[0].mint,
        toToken := swap.tokenOutputs[0].mint,
        amountIn := swap.tokenInputs[0].rawTokenAmount.tokenAmount,
        amountOut := swap.tokenOutputs[0].rawTokenAmount.tokenAmount,
        timeStamp := p.timestamp,
        status := Confirmed,
        fees := p.fee,
        error := p.transactionError))
  }

  /** A swap leg carrying only a mint and a raw amount. */
  function Leg(mint: string, amount: string): TokenIO
  {
    TokenIO("", "", mint, "", "", "", RawTokenAmount(0, amount))
  }

  /** A one-leg-each swap payload that carries the fields of `d`. */
  function PayloadFor(d: TransactionDetails): SolanaPayload
  {
    SolanaPayload("SWAP", "", Some(map[SwapKey := SwapEvent([Leg(d.fromToken, d.amountIn)], [Leg(d.toToken, d.amountOut)])]),
                  d.fees, d.account, d.signature, d.timeStamp, d.error)
  }

  /** Every confirmed summary is the projection of some payload, and of exactly the
      payload `PayloadFor` builds: the projection loses nothing it copies. */
  lemma ProjectionRoundTrip(d: TransactionDetails)
    requires d.status == Confirmed
    ensures GetTransactionDetails(PayloadFor(d)) == Success(d)
  {
  }

  /** Only the "swap" event is read: events under any other key change nothing. */
  lemma OtherEventsIgnored(p: SolanaPayload, key: string, e: SwapEvent)
    requires p.events.Some? && key != SwapKey
    ensures GetTransactionDetails(p.(events := Some(p.events.value[key := e]))) == GetTransactionDetails(p)
  {
  }
}

=== FILE: monitored_wallets.dfy ===
/** Removal of a wallet from a webhook's address list (services/monitoredwallets.go). */
module MonitoredWallets {
  import opened Wrappers
  import Helper

  /** `None` is the "wallet not found in webhook config" error; otherwise the first
      occurrence of `wallet` is deleted and the order of the others is kept. */
  function RemoveAddress(addresses: seq<string>, wallet: string): (r: Option<seq<string>>)
    ensures r.None? <==> wallet !in addresses
    ensures r.Some? ==> multiset(r.value) == multiset(addresses) - multiset{wallet}
    ensures r.Some? ==> exists i :: 0 <= i < |addresses| && addresses[i] == wallet &&
                                   wallet !in addresses[..i] &&
                                   r.value == addresses[..i] + addresses[i + 1..]
  {
    var i := Helper.FirstIndex(addresses, wallet);
    if i == -1 then None
    else
      assert addresses == addresses[..i] + [wallet] + addresses[i + 1..];
      assert wallet !in addresses[..i];
      Some(addresses[..i] + addresses[i + 1..])
  }
}

=== FILE: token_scanner.dfy ===
/** `GetFirstBuyersOfToken` of services/walletTriangulator.go: locate the mint, pick the
    start slot from the deployer's history, and scan the ledger forward one slot at a time
    until the address map is full or the scan has stagnated. */
module TokenScanner {
  import opened Wrappers
  import opened TriangulatorTypes
  import opened BlockAddresses
  import opened MintLocator

  // ---------------------------------------------------------------------------------------
  // Start slot
  // ---------------------------------------------------------------------------------------

  predicate IsPoolEvent(e: HistoryEntry)
  {
    e.transactionType == CreatePool || e.transactionType == AddLiquidity
  }

  /** The slot of the last pool event of the history, or 0 when there is none: a start
      slot other than 0 is the slot of some pool event. */
  function StartSlot(history: seq<HistoryEntry>): (r: nat)
    ensures r != 0 ==> exists i :: 0 <= i < |history| && IsPoolEvent(history[i]) && history[i].slot == r
  {
    if history == [] then 0
    else if IsPoolEvent(history[|history| - 1]) then history[|history| - 1].slot
    else
      var init := history[..|history| - 1];
      var r := StartSlot(init);
      assert forall i :: 0 <= i < |init| ==> init[i] == history[i];
      r
  }

  /** The start slot is that of the LAST pool event in list order. */
  lemma {:induction false} StartSlotIsLastPoolEvent(history: seq<HistoryEntry>, i: int)
    requires 0 <= i < |history| && IsPoolEvent(history[i])
    requires forall j :: i < j < |history| ==> !IsPoolEvent(history[j])
    ensures StartSlot(history) == history[i].slot
  {
    if i < |history| - 1 {
      StartSlotIsLastPoolEvent(history[..|history| - 1], i);
    }
  }

  /** Without a pool event the scan starts at slot 0. */
  lemma StartSlotWithoutPoolEvent(history: seq<HistoryEntry>)
    requires forall j :: 0 <= j < |history| ==> !IsPoolEvent(history[j])
    ensures StartSlot(history) == 0
  {
  }

  /** Lines 172-177: the loop over the history, which never breaks. */
  method DeploymentBlock(history: seq<HistoryEntry>) returns (deploymentBlock: nat)
    ensures deploymentBlock == StartSlot(history)
  {
    deploymentBlock := 0;
    for i := 0 to |history|
      invariant deploymentBlock == StartSlot(history[..i])
    {
      assert history[..i + 1][..i] == history[..i];
      if IsPoolEvent(history[i]) {
        deploymentBlock := history[i].slot;
      }
    }
    assert history[..|history|] == history;
  }

  // ---------------------------------------------------------------------------------------
  // The scan loop
  // ---------------------------------------------------------------------------------------

  /** How a scan ends, and how many slots it fetched (they are `start .. start+fetched-1`). */
  datatype ScanOutcome = ScanOutcome(result: Result<seq<string>, Error>, fetched: nat)

  /** Lines 179-197, from slot `slot` with the keys `found` and the stagnation counter
      `effortless`: stop when the map is full; otherwise fetch the slot, reset the counter if
      the map grew, fail on a fatal fetch, give up once the counter exceeds the ceiling, and
      go on at the next slot with the counter incremented. */
  function ScanLoop(blockAt: nat -> FetchResult, token: string, limit: int,
                    slot: nat, found: seq<string>, effortless: int): ScanOutcome
    requires NoDuplicates(found)
    requires 0 <= effortless <= StagnationCeiling + 1
    decreases limit - |found|, StagnationCeiling + 1 - effortless
  {
    if |found| >= limit then ScanOutcome(Success(found), 0)
    else
      BlockStepShape(blockAt(slot), token, limit, found);
      match BlockStep(blockAt(slot), token, limit, found)
      case Failure(e) => ScanOutcome(Failure(e), 1)
      case Success(next) =>
        var counter := if |next| > |found| then 0 else effortless;
        if counter > StagnationCeiling then ScanOutcome(Success(next), 1)
        else
          var rest := ScanLoop(blockAt, token, limit, slot + 1, next, counter + 1);
          ScanOutcome(rest.result, rest.fetched + 1)
  }

  /** One turn of the scan loop, unfolded: a failed fetch ends the scan with its error, a
      step that leaves the counter above the ceiling ends it with the step's keys, and any
      other step goes on at the next slot. */
  lemma ScanTurn(blockAt: nat -> FetchResult, token: string, limit: int, slot: nat, found: seq<string>, effortless: int)
    requires NoDuplicates(found) && |found| < limit
    requires 0 <= effortless <= StagnationCeiling + 1
    ensures BlockStep(blockAt(slot), token, limit, found).Failure? ==>
      ScanLoop(blockAt, token, limit, slot, found, effortless) ==
      ScanOutcome(Failure(BlockStep(blockAt(slot), token, limit, found).error), 1)
    ensures BlockStep(blockAt(slot), token, limit, found).Success? ==>
      var next := BlockStep(blockAt(slot), token, limit, found).value;
      var counter := if |next| > |found| then 0 else effortless;
      && NoDuplicates(next) && |found| <= |next| <= Max(limit, |found|)
      && next[..|found|] == found
      && (counter > StagnationCeiling ==> ScanLoop(blockAt, token, limit, slot, found, effortless) == ScanOutcome(Success(next), 1))
      && (counter <= StagnationCeiling ==>
            var rest := ScanLoop(blockAt, token, limit, slot + 1, next, counter + 1);
            ScanLoop(blockAt, token, limit, slot, found, effortless) == ScanOutcome(rest.result, rest.fetched + 1))
  {
    BlockStepShape(blockAt(slot), token, limit, found);
  }

  /** The keys a scan returns are distinct, extend the keys it started with, and number at
      most `max(limit, size before)`. */
  lemma {:induction false} ScanBounded(blockAt: nat -> FetchResult, token: string, limit: int,
                                       slot: nat, found: seq<string>, effortless: int)
    requires NoDuplicates(found)
    requires 0 <= effortless <= StagnationCeiling + 1
    ensures var o := ScanLoop(blockAt, token, limit, slot, found, effortless);
      o.result.Success? ==>
        && NoDuplicates(o.result.value)
        && |found| <= |o.result.value| <= Max(limit, |found|)
        && o.result.value[..|found|] == found
    decreases limit - |found|, StagnationCeiling + 1 - effortless
  {
    if |found| < limit {
      ScanTurn(blockAt, token, limit, slot, found, effortless);
      var step := BlockStep(blockAt(slot), token, limit, found);
      if step.Success? {
        var next := step.value;
        var counter := if |next| > |found| then 0 else effortless;
        if counter <= StagnationCeiling {
          ScanBounded(blockAt, token, limit, slot + 1, next, counter + 1);
          var r := ScanLoop(blockAt, token, limit, slot + 1, next, counter + 1).result;
          if r.Success? {
            assert r.value[..|next|][..|found|] == r.value[..|found|];
          }
        }
      }
    }
  }

  /** Address `a` is a candidate of the block at slot `s`: the signer of a transaction of that
      block that touches the token. */
  ghost predicate CandidateAt(blockAt: nat -> FetchResult, token: string, s: nat, a: string)
  {
    blockAt(s).Fetched? && a in BlockCandidates(blockAt(s).block.transactions, token)
  }

  /** Every address a scan returns was there at the start or is a candidate of a block the
      scan fetched. */
  lemma {:induction false} ScanFindsOnlyCandidates(blockAt: nat -> FetchResult, token: string, limit: int,
                                                   slot: nat, found: seq<string>, effortless: int, a: string)
    requires NoDuplicates(found)
    requires 0 <= effortless <= StagnationCeiling + 1
    requires ScanLoop(blockAt, token, limit, slot, found, effortless).result.Success?
    requires a in ScanLoop(blockAt, token, limit, slot, found, effortless).result.value
    ensures a in found ||
      exists s: nat :: slot <= s < slot + ScanLoop(blockAt, token, limit, slot, found, effortless).fetched &&
                       CandidateAt(blockAt, token, s, a)
    decreases limit - |found|, StagnationCeiling + 1 - effortless
  {
    if |found| < limit {
      ScanTurn(blockAt, token, limit, slot, found, effortless);
      var next := BlockStep(blockAt(slot), token, limit, found).value;
      BlockStepMembers(blockAt(slot), token, limit, found, a);
      var counter := if |next| > |found| then 0 else effortless;
      if counter <= StagnationCeiling {
        ScanFindsOnlyCandidates(blockAt, token, limit, slot + 1, next, counter + 1, a);
      }
      if a !in found {
        if a in next {
          assert CandidateAt(blockAt, token, slot, a);
        }
      }
    }
  }

  /** The keys after the turn at any fetched slot `s` of a successful scan are a prefix of
      the keys it returns: the step at `s`, from some distinct key list `before`, extends
      into the result. */
  lemma {:induction false} ScanStepAt(blockAt: nat -> FetchResult, token: string, limit: int,
                                      slot: nat, found: seq<string>, effortless: int, s: nat)
    returns (before: seq<string>)
    requires NoDuplicates(found)
    requires 0 <= effortless <= StagnationCeiling + 1
    requires ScanLoop(blockAt, token, limit, slot, found, effortless).result.Success?
    requires slot <= s < slot + ScanLoop(blockAt, token, limit, slot, found, effortless).fetched
    ensures NoDuplicates(before) && BlockStep(blockAt(s), token, limit, before).Success?
    ensures var next := BlockStep(blockAt(s), token, limit, before).value;
      var r := ScanLoop(blockAt, token, limit, slot, found, effortless).result.value;
      |next| <= |r| && r[..|next|] == next
    decreases limit - |found|, StagnationCeiling + 1 - effortless
  {
    assert |found| < limit;
    ScanTurn(blockAt, token, limit, slot, found, effortless);
    var next := BlockStep(blockAt(slot), token, limit, found).value;
    var counter := if |next| > |found| then 0 else effortless;
    if s == slot {
      before := found;
      if counter <= StagnationCeiling {
        ScanBounded(blockAt, token, limit, slot + 1, next, counter + 1);
      } else {
        assert next[..|next|] == next;
      }
    } else {
      before := ScanStepAt(blockAt, token, limit, slot + 1, next, counter + 1, s);
    }
  }

  /** A scan that ends below `limit` misses no candidate of the blocks it fetched. */
  lemma ScanMissesNoCandidate(blockAt: nat -> FetchResult, token: string, limit: int,
                              slot: nat, found: seq<string>, effortless: int, s: nat, a: string)
    requires NoDuplicates(found)
    requires 0 <= effortless <= StagnationCeiling + 1
    requires ScanLoop(blockAt, token, limit, slot, found, effortless).result.Success?
    requires |ScanLoop(blockAt, token, limit, slot, found, effortless).result.value| < limit
    requires slot <= s < slot + ScanLoop(blockAt, token, limit, slot, found, effortless).fetched
    requires CandidateAt(blockAt, token, s, a)
    ensures a in ScanLoop(blockAt, token, limit, slot, found, effortless).result.value
  {
    var before := ScanStepAt(blockAt, token, limit, slot, found, effortless, s);
    CandidateSurvives(blockAt(s), token, limit, before, ScanLoop(blockAt, token, limit, slot, found, effortless).result.value, a);
  }

  /** A candidate of a fetched block ends up in any key list that extends the step's keys
      while staying below `limit`. */
  lemma CandidateSurvives(fetched: FetchResult, token: string, limit: int, found: seq<string>, r: seq<string>, a: string)
    requires NoDuplicates(found)
    requires BlockStep(fetched, token, limit, found).Success?
    requires var next := BlockStep(fetched, token, limit, found).value;
      |next| <= |r| < limit && r[..|next|] == next
    requires fetched.Fetched? && a in BlockCandidates(fetched.block.transactions, token)
    ensures a in r
  {
    var next := BlockStep(fetched, token, limit, found).value;
    BlockStepMembers(fetched, token, limit, found, a);
    var i :| 0 <= i < |next| && next[i] == a;
    assert r[..|next|][i] == a;
  }

  /** The scan always ends, after at most 102 fetches per address still missing plus 102. */
  lemma {:induction false} ScanFetchBound(blockAt: nat -> FetchResult, token: string, limit: int,
                                          slot: nat, found: seq<string>, effortless: int)
    requires NoDuplicates(found)
    requires 0 <= effortless <= StagnationCeiling + 1
    ensures ScanLoop(blockAt, token, limit, slot, found, effortless).fetched <=
            (StagnationCeiling + 2) * Max(limit - |found|, 0) + StagnationCeiling + 2 - effortless
    decreases limit - |found|, StagnationCeiling + 1 - effortless
  {
    if |found| < limit {
      ScanTurn(blockAt, token, limit, slot, found, effortless);
      var step := BlockStep(blockAt(slot), token, limit, found);
      if step.Success? {
        var next := step.value;
        var counter := if |next| > |found| then 0 else effortless;
        if counter <= StagnationCeiling {
          ScanFetchBound(blockAt, token, limit, slot + 1, next, counter + 1);
        }
      }
    }
  }

  /** The scan reads exactly the slots `slot .. slot+fetched-1`, one after the other: any
      ledger that agrees on those slots gives the same outcome. */
  lemma {:induction false} ScanReadsOnlyFetchedSlots(blockAt: nat -> FetchResult, other: nat -> FetchResult,
                                                     token: string, limit: int,
                                                     slot: nat, found: seq<string>, effortless: int)
    requires NoDuplicates(found)
    requires 0 <= effortless <= StagnationCeiling + 1
    requires forall s: nat :: slot <= s < slot + ScanLoop(blockAt, token, limit, slot, found, effortless).fetched ==>
               other(s) == blockAt(s)
    ensures ScanLoop(other, token, limit, slot, found, effortless) == ScanLoop(blockAt, token, limit, slot, found, effortless)
    decreases limit - |found|, StagnationCeiling + 1 - effortless
  {
    if |found| < limit {
      assert other(slot) == blockAt(slot);
      ScanTurn(blockAt, token, limit, slot, found, effortless);
      ScanTurn(other, token, limit, slot, found, effortless);
      var step := BlockStep(blockAt(slot), token, limit, found);
      if step.Success? {
        var next := step.value;
        var counter := if |next| > |found| then 0 else effortless;
        if counter <= StagnationCeiling {
          ScanReadsOnlyFetchedSlots(blockAt, other, token, limit, slot + 1, next, counter + 1);
        }
      }
    }
  }

  /** A skipped slot counts exactly like a block with no qualifying transaction. */
  lemma {:induction false} SkippedLikeEmptyBlock(blockAt: nat -> FetchResult, skipped: nat,
                                                 token: string, limit: int,
                                                 slot: nat, found: seq<string>, effortless: int)
    requires blockAt(skipped).FetchFailed? && IsSkipped(blockAt(skipped).message)
    requires NoDuplicates(found)
    requires 0 <= effortless <= StagnationCeiling + 1
    ensures var emptied := (s: nat) => if s == skipped then Fetched(Block([])) else blockAt(s);
      ScanLoop(emptied, token, limit, slot, found, effortless) == ScanLoop(blockAt, token, limit, slot, found, effortless)
    decreases limit - |found|, StagnationCeiling + 1 - effortless
  {
    var emptied := (s: nat) => if s == skipped then Fetched(Block([])) else blockAt(s);
    if |found| < limit {
      ScanTurn(blockAt, token, limit, slot, found, effortless);
      ScanTurn(emptied, token, limit, slot, found, effortless);
      var step := BlockStep(blockAt(slot), token, limit, found);
      assert BlockStep(emptied(slot), token, limit, found) == step;
      if step.Success? {
        var next := step.value;
        var counter := if |next| > |found| then 0 else effortless;
        if counter <= StagnationCeiling {
          SkippedLikeEmptyBlock(blockAt, skipped, token, limit, slot + 1, next, counter + 1);
        }
      }
    }
  }

  /** When every slot from here on is skipped, the scan gives up without an error after
      `102 - effortless` fetches and returns what it had, below `limit`. */
  lemma {:induction false} ScanGivesUp(blockAt: nat -> FetchResult, token: string, limit: int,
                                       slot: nat, found: seq<string>, effortless: int)
    requires forall s: nat :: s >= slot ==> blockAt(s).FetchFailed? && IsSkipped(blockAt(s).message)
    requires NoDuplicates(found) && |found| < limit
    requires 0 <= effortless <= StagnationCeiling + 1
    ensures ScanLoop(blockAt, token, limit, slot, found, effortless) ==
            ScanOutcome(Success(found), StagnationCeiling + 2 - effortless)
    decreases StagnationCeiling + 1 - effortless
  {
    assert blockAt(slot).FetchFailed? && IsSkipped(blockAt(slot).message);
    ScanTurn(blockAt, token, limit, slot, found, effortless);
    if effortless <= StagnationCeiling {
      ScanGivesUp(blockAt, token, limit, slot + 1, found, effortless + 1);
    }
  }

  // ---------------------------------------------------------------------------------------
  // GetFirstBuyersOfToken
  // ---------------------------------------------------------------------------------------

  /** What `GetFirstBuyersOfToken` computes: an error from the export or the history, or the
      outcome of the scan from the start slot with an empty map. An empty mint record is not
      rejected: the history is then asked for ("", ""). The first buyers are distinct and at
      most `max(limit, 0)` of them. */
  function FirstBuyers(net: Network, token: string, limit: int): (r: Result<seq<string>, Error>)
    ensures r.Success? ==> NoDuplicates(r.value) && |r.value| <= Max(limit, 0)
  {
    match MintRecordOf(net.exportOf(token))
    case Failure(e) => Failure(e)
    case Success(record) =>
      match net.historyOf(record.sourceOwnerAccount, record.txHash)
      case Failure(message) => Failure(HistoryFailed(message))
      case Success(history) =>
        ScanBounded(net.blockAt, token, limit, StartSlot(history), [], 0);
        ScanLoop(net.blockAt, token, limit, StartSlot(history), [], 0).result
  }

  /** Each first buyer is a candidate of a block at or after the start slot taken from the
      history of the mint's deployer. */
  lemma FirstBuyersAreCandidates(net: Network, token: string, limit: int, record: TransactionRecord,
                                 history: seq<HistoryEntry>, a: string)
    requires MintRecordOf(net.exportOf(token)) == Success(record)
    requires net.historyOf(record.sourceOwnerAccount, record.txHash) == Success(history)
    requires FirstBuyers(net, token, limit).Success? && a in FirstBuyers(net, token, limit).value
    ensures exists s: nat :: StartSlot(history) <= s && CandidateAt(net.blockAt, token, s, a)
  {
    ScanFindsOnlyCandidates(net.blockAt, token, limit, StartSlot(history), [], 0, a);
  }

  /** With `limit <= 0` no block is fetched and the result is empty. */
  lemma NothingFetchedWithoutLimit(blockAt: nat -> FetchResult, token: string, limit: int, slot: nat)
    requires limit <= 0
    ensures ScanLoop(blockAt, token, limit, slot, [], 0) == ScanOutcome(Success([]), 0)
  {
  }

  /** One turn of the loop of lines 181-196: fetch the block at `slot`, reset the counter when
      the set grew, return a fetch error, stop once the counter passes the ceiling, or count
      the turn and go on. */
  method ScanBlock(blockAt: nat -> FetchResult, token: string, limit: int, slot: nat, found: AddressSet, effortlessCalls: int)
    returns (err: Option<Error>, stop: bool, counter: int)
    requires found.Valid() && |found.keys| < limit
    requires 0 <= effortlessCalls <= StagnationCeiling + 1
    modifies found
    ensures found.Valid() && |old(found.keys)| <= |found.keys|
    ensures err.Some? ==> found.keys == old(found.keys)
    ensures err.None? ==> BlockStep(blockAt(slot), token, limit, old(found.keys)) == Success(found.keys)
    ensures err.Some? ==> ScanLoop(blockAt, token, limit, slot, old(found.keys), effortlessCalls).result == Failure(err.value)
    ensures err.None? && stop ==> ScanLoop(blockAt, token, limit, slot, old(found.keys), effortlessCalls).result == Success(found.keys)
    ensures err.None? && !stop ==>
      && 0 <= counter <= StagnationCeiling + 1
      && counter == (if |found.keys| > |old(found.keys)| then 1 else effortlessCalls + 1)
      && ScanLoop(blockAt, token, limit, slot, old(found.keys), effortlessCalls).result ==
         ScanLoop(blockAt, token, limit, slot + 1, found.keys, counter).result
  {
    ScanTurn(blockAt, token, limit, slot, found.keys, effortlessCalls);
    counter := effortlessCalls;
    stop := false;
    var addressLengthBefore := |found.keys|;
    err := GetBlockAddresses(blockAt, slot, found, token, limit);
    var addressesLengthAfter := |found.keys|;
    if addressesLengthAfter > addressLengthBefore {
      counter := 0;
    }
    if err.Some? {
      return;
    }
    if counter > StagnationCeiling {
      stop := true;
      return;
    }
    counter := counter + 1;
  }

  /** The loop of lines 179-197 on the address set `found`: it ends with the keys the
      scan specifies, or with the error of a block fetch. */
  method ScanFrom(blockAt: nat -> FetchResult, token: string, limit: int, slot: nat, found: AddressSet)
    returns (err: Option<Error>)
    requires found.Valid()
    modifies found
    ensures found.Valid()
    ensures err.Some? ==> ScanLoop(blockAt, token, limit, slot, old(found.keys), 0).result == Failure(err.value)
    ensures err.None? ==> ScanLoop(blockAt, token, limit, slot, old(found.keys), 0).result == Success(found.keys)
  {
    ghost var goal := ScanLoop(blockAt, token, limit, slot, found.keys, 0).result;
    var deploymentBlock := slot;
    var effortlessCalls := 0;
    while |found.keys| < limit
      invariant found.Valid()
      invariant 0 <= effortlessCalls <= StagnationCeiling + 1
      invariant ScanLoop(blockAt, token, limit, deploymentBlock, found.keys, effortlessCalls).result == goal
      decreases limit - |found.keys|, StagnationCeiling + 1 - effortlessCalls
    {
      var blockErr, stop;
      blockErr, stop, effortlessCalls := ScanBlock(blockAt, token, limit, deploymentBlock, found, effortlessCalls);
      if blockErr.Some? {
        return blockErr;
      }
      if stop {
        return None;
      }
      deploymentBlock := deploymentBlock + 1;
    }
    return None;
  }

  /** `GetFirstBuyersOfToken`. On an error the list is empty; otherwise it lists the keys of
      the address map (in insertion order, one of the orders Go's map iteration may take). */
  method GetFirstBuyersOfToken(net: Network, token: string, limit: int)
    returns (addresses: seq<string>, err: Option<Error>)
    ensures FirstBuyers(net, token, limit).Failure? ==>
      addresses == [] && err == Some(FirstBuyers(net, token, limit).error)
    ensures FirstBuyers(net, token, limit).Success? ==>
      err == None && addresses == FirstBuyers(net, token, limit).value
    ensures NoDuplicates(addresses) && |addresses| <= Max(limit, 0)
  {
    var record, mintErr := GetTokenMintTransaction(net.exportOf(token));
    if mintErr.Some? {
      return [], mintErr;
    }
    var found := new AddressSet();
    var deployerAddress := record.sourceOwnerAccount;
    var deploymentSignature := record.txHash;
    var deployerTransactions := net.historyOf(deployerAddress, deploymentSignature);
    if deployerTransactions.Failure? {
      return [], Some(HistoryFailed(deployerTransactions.error));
    }
    var deploymentBlock := DeploymentBlock(deployerTransactions.value);
    var scanErr := ScanFrom(net.blockAt, token, limit, deploymentBlock, found);
    if scanErr.Some? {
      return [], scanErr;
    }
    addresses, err := found.keys, None;
  }

  /** A purchase of `token` signed by `buyer` alone. */
  function Purchase(buyer: string, token: string): AccountTransaction
  {
    AccountTransaction([AccountKey(buyer, true), AccountKey(token, false)], [])
  }

  /** A purchase contributes its buyer as the block's only candidate. */
  lemma PurchaseCandidates(buyer: string, token: string)
    requires buyer != ""
    ensures BlockCandidates([Purchase(buyer, token)], token) == [buyer]
  {
    var tx := Purchase(buyer, token);
    if SameAddress(buyer, token) {
      assert tx.accountKeys[..1] == [AccountKey(buyer, true)];
      assert StopsAt(tx.accountKeys, token, 0);
      assert FirstStop(tx.accountKeys, token, 0) == 0;
    } else {
      FirstMatchAfterSigner(tx, token, 1, 0);
    }
    assert [Purchase(buyer, token)][..0] == [];
  }

  /** Three consecutive blocks each hold one purchase by a different buyer: with a limit of
      two, the scan returns the first two buyers in block order and never fetches the third
      block. */
  lemma ScanStopsAtLimit(blockAt: nat -> FetchResult, token: string, s: nat, a: string, b: string, c: string)
    requires a != "" && b != "" && c != "" && a != b && b != c && a != c
    requires blockAt(s) == Fetched(Block([Purchase(a, token)]))
    requires blockAt(s + 1) == Fetched(Block([Purchase(b, token)]))
    requires blockAt(s + 2) == Fetched(Block([Purchase(c, token)]))
    ensures ScanLoop(blockAt, token, 2, s, [], 0) == ScanOutcome(Success([a, b]), 2)
  {
    PurchaseCandidates(a, token);
    PurchaseCandidates(b, token);
    assert [a][1..] == [] && [b][1..] == [];
    assert Insert([], a) == [a] && Insert([a], b) == [a, b];
    assert BoundedInsert([], [a], 2) == BoundedInsert([a], [], 2);
    assert BoundedInsert([a], [b], 2) == BoundedInsert([a, b], [], 2);
    assert BlockStep(blockAt(s), token, 2, []) == Success([a]);
    assert BlockStep(blockAt(s + 1), token, 2, [a]) == Success([a, b]);
    assert ScanLoop(blockAt, token, 2, s + 2, [a, b], 1) == ScanOutcome(Success([a, b]), 0);
    assert ScanLoop(blockAt, token, 2, s + 1, [a], 1) == ScanOutcome(Success([a, b]), 1);
  }
}

=== FILE: triangulator_types.dfy ===
/** Entities of services/walletTriangulator.go and of the upstream answers it consumes. */
module TriangulatorTypes {
  import opened Wrappers

  const CreatePool := "CREATE_POOL"
  const AddLiquidity := "ADD_LIQUIDITY"
  /** The scan gives up once the stagnation counter exceeds this at the check. */
  const StagnationCeiling := 100
  /** An RPC error whose text contains this is a skipped slot, not a failure. */
  const SkippedMarker := "was skipped"
  const StatusOk := 200
  /** The CSV export has this many columns (`FieldsPerRecord`). */
  const ExportColumns := 15

  /** `rpc.ParsedMessageAccount`: the base58 text of the key and its signer flag. */
  datatype AccountKey = AccountKey(publicKey: string, signer: bool)

  datatype AccountTransaction = AccountTransaction(accountKeys: seq<AccountKey>, signatures: seq<string>)

  /** The part of `GetBlockResult` the scanner reads. */
  datatype Block = Block(transactions: seq<AccountTransaction>)

  /** One `getBlock` RPC answer: the block, or the error text. */
  datatype FetchResult = Fetched(block: Block) | FetchFailed(message: string)

  /** A row of the mint export once split by the CSV reader: its fields, or the reader's
      error for a malformed line. */
  datatype CsvLine = Fields(fields: seq<string>) | Unreadable(message: string)

  /** The answer to the export request: a transport error, or a status code and body. */
  datatype ExportResponse = TransportFailure(message: string) | Response(status: int, lines: seq<CsvLine>)

  /** The part of `HeliusTransactionResponse` the scanner reads. */
  datatype HistoryEntry = HistoryEntry(transactionType: string, slot: nat)

  /** The external collaborators, as total functions of their arguments: the mint export
      by token address, the deployer history by (address, lower-bound signature), and the
      ledger by slot. */
  datatype Network = Network(
    exportOf: string -> ExportResponse,
    historyOf: (string, string) -> Result<seq<HistoryEntry>, string>,
    blockAt: nat -> FetchResult)

  /** `TransactionRecord`: the 15 columns of a mint row. */
  datatype TransactionRecord = TransactionRecord(
    recordType: string,
    slot: string,
    blockTimeUnix: string,
    blockTime: string,
    fee: string,
    isInner: string,
    txHash: string,
    sourceOwnerAccount: string,
    sourceTokenAccount: string,
    destOwnerAccount: string,
    destTokenAccount: string,
    amount: string,
    symbol: string,
    decimals: string,
    tokenAddress: string)

  /** The Go zero value of `TransactionRecord`. */
  const EmptyRecord := TransactionRecord("", "", "", "", "", "", "", "", "", "", "", "", "", "", "")

  /** The errors a scan can end with. */
  datatype Error =
    | RequestFailed(message: string)
    | BadStatus(status: int)
    | CsvFailed(message: string)
    | WrongFieldCount(count: nat)
    | HistoryFailed(message: string)
    | BlockFailed(message: string)

  datatype FirstBuyerResult = FirstBuyerResult(tokenAddress: string, addresses: seq<string>)

  datatype WalletOccurrence = WalletOccurrence(address: string, count: int, occurrences: seq<string>)

  function Max(a: int, b: int): int
  {
    if a < b then b else a
  }

  predicate NoDuplicates<T(==)>(s: seq<T>)
  {
    forall i, j :: 0 <= i < j < |s| ==> s[i] != s[j]
  }

  /** `strings.ToLower` on one character, for the ASCII letters base58 text is made of. */
  function LowerChar(c: char): char
  {
    if 'A' <= c <= 'Z' then (c as int + ('a' as int - 'A' as int)) as char else c
  }

  function ToLower(s: string): string
  {
    seq(|s|, i requires 0 <= i < |s| => LowerChar(s[i]))
  }

  /** Addresses compare equal when their lower-cased texts are equal. */
  predicate SameAddress(a: string, b: string)
  {
    ToLower(a) == ToLower(b)
  }

  /** `strings.Contains`. */
  predicate ContainsText(s: string, part: string)
    decreases |s|
  {
    if |part| <= |s| && s[..|part|] == part then true
    else if s == [] then false
    else ContainsText(s[1..], part)
  }
}

=== FILE: webhook.dfy ===
/** The in-memory transaction cache of routers/webhook.go: a map from ID to summary and the
    next ID to hand out. */
module Webhook {
  import opened Models

  class TransactionCache {
    var m: map<int, TransactionDetails>
    var id: int

    /** Every insert uses the current ID and then advances it, and a clear resets both,
        so the keys are always exactly the IDs handed out since the last clear. */
    ghost predicate Valid()
      reads this
    {
      id >= 0 && forall k :: k in m <==> 0 <= k < id
    }

    constructor ()
      ensures Valid() && m == map[] && id == 0
    {
      m := map[];
      id := 0;
    }

    /** Lines 65-68 of `WebhookHandler`: store under the current ID, then increment. */
    method Insert(d: TransactionDetails)
      requires Valid()
      modifies this
      ensures Valid()
      ensures m == old(m)[old(id) := d] && id == old(id) + 1
      ensures old(id) !in old(m)
    {
      m := m[id := d];
      id := id + 1;
    }

    /** The cache part of `WebhookHandler`: only the first payload is projected; a payload
        that is not a swap is answered with "ok" and leaves the cache as it was. */
    method HandleWebhook(payload: seq<SolanaPayload>)
      requires Valid() && |payload| > 0
      modifies this
      ensures Valid()
      ensures GetTransactionDetails(payload[0]).Failure? ==> m == old(m) && id == old(id)
      ensures GetTransactionDetails(payload[0]).Success? ==>
        m == old(m)[old(id) := GetTransactionDetails(payload[0]).value] && id == old(id) + 1
    {
      var detail := GetTransactionDetails(payload[0]);
      if detail.Failure? {
        return;
      }
      Insert(detail.value);
    }

    /** `ClearCache`. */
    method Clear()
      modifies this
      ensures Valid() && m == map[] && id == 0
    {
      m := map[];
      id := 0;
    }

    /** `getLatestCacheID`: `ID - 1`, which is the key of the most recent entry, or -1 when
        the cache is empty. */
    method LatestId() returns (r: int)
      requires Valid()
      ensures r == id - 1
      ensures r == -1 <==> m == map[]
      ensures m != map[] ==> r in m && forall k :: k in m ==> k <= r
    {
      r := id - 1;
      if id == 0 {
        assert forall k :: k !in m;
        assert m == map[];
      } else {
        assert 0 in m && r in m;
      }
    }

    /** `GetTransactionCache`: one element per entry. Go walks the map in a random order;
        the model walks the IDs upwards, which is one of those orders. */
    method AllTransactions() returns (r: seq<TransactionDetails>)
      requires Valid()
      ensures forall i :: 0 <= i < |r| ==> i in m && r[i] == m[i]
      ensures forall k :: k in m ==> 0 <= k < |r|
    {
      r := [];
      for k := 0 to id
        invariant |r| == k
        invariant forall i :: 0 <= i < k ==> r[i] == m[i]
      {
        r := r + [m[k]];
      }
    }

    /** `GetAllTransactionsAfterSignature(x)`: exactly the entries whose key is greater
        than `x`, walked in ID order. */
    method TransactionsAfter(x: int) returns (r: seq<TransactionDetails>)
      requires Valid()
      ensures var from := if x < 0 then 0 else x + 1;
        && |r| == (if from < id then id - from else 0)
        && forall i :: 0 <= i < |r| ==> from + i in m && from + i > x && r[i] == m[from + i]
    {
      r := [];
      ghost var from := if x < 0 then 0 else x + 1;
      for k := 0 to id
        invariant |r| == (if from < k then k - from else 0)
        invariant forall i :: 0 <= i < |r| ==> r[i] == m[from + i]
      {
        if k > x {
          r := r + [m[k]];
        }
      }
    }

  }

  /** After a clear, `n` successful webhooks leave exactly the IDs `0 .. n-1`, and the
      latest ID is `n - 1`. */
  method ClearThenInsert(cache: TransactionCache, ds: seq<TransactionDetails>)
    modifies cache
    ensures cache.Valid() && cache.id == |ds|
    ensures forall i :: 0 <= i < |ds| ==> i in cache.m && cache.m[i] == ds[i]
    ensures forall k :: k in cache.m ==> 0 <= k < |ds|
  {
    cache.Clear();
    for n := 0 to |ds|
      invariant cache.Valid() && cache.id == n
      invariant forall i :: 0 <= i < n ==> i in cache.m && cache.m[i] == ds[i]
    {
      cache.Insert(ds[n]);
    }
  }
}

=== FILE: wrappers.dfy ===
/** Failure-carrying wrappers shared by the model: Go's `(value, error)` pairs become `Result`. */
module Wrappers {

  datatype Option<+T> = None | Some(value: T)

  datatype Result<+T, +E> = Success(value: T) | Failure(error: E)
}
